=== FILE: README.md ===
# Nobitex transaction normalisation

This project models the pure core of the Nobitex exchange adapter. The core
turns one row of the exchange's transaction history into a normalised
transaction record. It has three parts.

- **`parsePossibleLargeNumber`** (`utils/bigint.ts`) parses a numeric string
  from the exchange. It returns a bigint when `parseInt` reads a finite
  number and `BigInt(value)` accepts the text with a different value, and
  the `parseFloat` number otherwise.
- **The pricing table** (`exchanges/nobitex/asset-config.ts`) maps each
  currency code the exchange reports to a pricing rule: base asset, root
  flag, multiplier, inversion flag, optional market symbol and accuracy.
- **Row normalisation** (`exchanges/nobitex/utils.ts`) has three steps.
  - `formatTransaction` reads buy or sell from the sign of the amount, parses
    the quantity and the balance, and renames the currency to its base asset.
  - `processType` refines the type from Persian markers in the description.
  - `processPrice` merges the "به قیمت واحد N UNIT" ("at unit price") hint,
    found by `extractPriceAndUnit`, into `meta`.

The JavaScript built-ins the core relies on are modelled from their
ECMAScript definitions in `JsNumbers` and `Text`:

- `parseInt(s, 10)`, with the exact rounding of an integer to the nearest
  binary64 double (ties to even, overflow to ±Infinity).
- `BigInt(string)`, including its `0x`/`0o`/`0b` literals.
- `BigInt(number)`.
- `parseFloat`.
- `trim`, `trimStart` and `includes`.

A thrown exception is an `Option` that is `None`. The regular expression
`/به قیمت واحد ([\d,]+) (\S+)/` is a left-to-right scan, `PricePattern.FirstMatch`.
It is proved equal to a declarative description: the leftmost index where the
pattern occurs, with both runs taken whole.

Modules:

- `Wrappers` (Option)
- `Text` (whitespace, `includes`, runs, trimming)
- `JsNumbers` (the numeric built-ins)
- `LargeNumbers` (`utils/bigint.ts`)
- `AssetConfig` (`asset-config.ts`)
- `PricePattern` (the regular expression and `extractPriceAndUnit`)
- `NobitexTransactions` (`formatTransaction`, `processType`, `processPrice`)

Four facts about the code that the model keeps:

- **Four transaction types, not two.** The `Transaction` interface at
  `interfaces/transaction-fetcher.interface.ts:15` declares only buy and sell,
  but `processType` emits four types (buy, sell, deposit, withdrawal). The
  model has all four.
- **Root or symbol is not exclusive.** The `rls` entry has neither `isRoot`
  nor `symbol` (`AssetConfig.RialsHasNoPricingRule`).
- **No parse error.** `parsePossibleLargeNumber` never throws: `isBigInt`
  swallows every exception, and the result then comes from `parseFloat`. That
  is NaN only when no numeric prefix remains; "12abc" gives 12.
- **Both hint keys are written.** `processPrice` always writes both `price`
  and `unit` into `meta`, as nulls when there is no hint.

A decimal integer whose magnitude rounds to 2^1024 or more (over about 309
digits) makes `parseInt` give Infinity. `BigInt(Infinity)` then throws, so such
a string is returned as a `parseFloat` number rather than an exact bigint.
`LargeNumbers.DecimalStringRoundTrip` states this case explicitly.

## Model

| member | source | states |
|---|---|---|
| Text.IncludesIffOccurs | exchanges/nobitex/utils.ts:49-61 | `description.includes(marker)` is true exactly when the marker occurs at some index of the description |
| Text.RunEnd | exchanges/nobitex/utils.ts:9 | the run a greedy class repetition consumes is maximal: every character in it is in the class, and the next one is not, or the input ends |
| Text.TrimStart | utils/bigint.ts:3 | leading whitespace is removed and nothing else: the result is a suffix, every removed character is whitespace, and the result does not start with whitespace |
| Text.TrimEnd | utils/bigint.ts:3 | trailing whitespace is removed and nothing else: the result is a prefix, every removed character is whitespace, and the result does not end with whitespace |
| Text.TrimOfTrimmed | utils/bigint.ts:3 | text that starts and ends with non-whitespace is left unchanged by `trim` and `trimStart` |
| JsNumbers.RoundToDouble | utils/bigint.ts:3 | the double `parseInt` yields for an integer, rounded to nearest with ties to even: exact up to 2^53 in magnitude; otherwise a whole number of units in the last place of the integer, within half a unit of it, an even number of units on a tie, with the sign kept and at most the largest finite double (2^53 - 1) * 2^971; it overflows to the infinity of the integer's sign exactly from magnitude (2^54 - 1) * 2^970 |
| JsNumbers.RoundMagnitudeOnGrid | utils/bigint.ts:3 | the rounded magnitude is a whole number of units in the last place, and an even number of them on a tie |
| JsNumbers.RoundMagnitudeOverflow | utils/bigint.ts:3 | rounding leaves the exponent range exactly from (2^54 - 1) * 2^970, halfway between the largest finite double and 2^1024 |
| JsNumbers.RoundToUnitsTiesToEven | utils/bigint.ts:3 | rounding to whole units breaks a tie towards the even count |
| JsNumbers.RoundMagnitudeIsNearest | utils/bigint.ts:3 | rounding a magnitude to 53 significant bits, after renormalising a carry, lands within half a unit in the last place |
| JsNumbers.RoundMagnitudeExact | utils/bigint.ts:3 | magnitudes up to 2^53 are represented exactly |
| JsNumbers.DigitRunOfDecimalInteger | utils/bigint.ts:3 | after leading whitespace, `parseInt`'s sign and digit run are exactly the sign and digits of the trimmed decimal integer |
| JsNumbers.ParseIntOfDecimalInteger | utils/bigint.ts:3 | `parseInt(s, 10)` on a decimal integer is the double nearest to its value |
| JsNumbers.BigIntOfDecimalInteger | utils/bigint.ts:3 | `BigInt(s)` on a decimal integer is its exact value |
| JsNumbers.UnsignedFloatOfDigits | utils/bigint.ts:10 | a digit run followed by neither a point nor an exponent is read by `parseFloat` as that integer |
| JsNumbers.UnsignedFloatOfFraction | utils/bigint.ts:10 | digits, a point and fraction digits with no exponent are read by `parseFloat` as all the digits scaled down by the fraction's length |
| JsNumbers.ParseFloatOfDecimalInteger | utils/bigint.ts:10 | `parseFloat(s)` on a decimal integer denotes exactly the integer's value (as an exact decimal; see `JsNumbers.ParseFloat` under Left out) |
| JsNumbers.ParseFloatOfDigits | exchanges/nobitex/utils.ts:18 | `parseFloat` of a digit string is its value, and of the empty string NaN |
| JsNumbers.SignedDigitsAreDecimalInteger | utils/bigint.ts:3 | digits, with or without a leading minus, form a decimal integer with that sign and the digits' value |
| LargeNumbers.ParsePossibleLargeNumber | utils/bigint.ts:1-11 | the result is a bigint exactly when `isBigInt(value)` holds; that bigint is what `BigInt(value)` reads, differs from what `parseInt` gives, and comes only from a `0x`/`0o`/`0b` literal or from a decimal integer beyond 2^53 in magnitude, whose exact value it is; otherwise the result is `parseFloat(value)`, which for a decimal integer denotes its exact value (as an exact decimal; see `JsNumbers.ParseFloat` under Left out) |
| LargeNumbers.BigIntSources | utils/bigint.ts:1-7 | `isBigInt` holds only for a `0x`/`0o`/`0b` literal or for a decimal integer beyond 2^53 in magnitude that `BigInt` reads exactly; `parseFloat` reads a decimal integer exactly (as an exact decimal; see `JsNumbers.ParseFloat` under Left out) |
| LargeNumbers.RejectedByBigIntIsFloat | utils/bigint.ts:1-11 | text that `BigInt` rejects makes `isBigInt` false, so the result is `parseFloat(value)` |
| LargeNumbers.DecimalIntegerIsExact | utils/bigint.ts:1-11 | a decimal integer becomes a bigint exactly when `parseInt` rounds it to a different finite double; either way the result has the integer's exact value (as an exact decimal; see `JsNumbers.ParseFloat` under Left out) |
| LargeNumbers.SafeIntegerStaysNumber | utils/bigint.ts:3-10 | a decimal integer of magnitude at most 2^53 is not a bigint, and its number denotes the integer exactly (as an exact decimal; see `JsNumbers.ParseFloat` under Left out) |
| LargeNumbers.RadixLiteralIsBigIntUnlessZero | utils/bigint.ts:3 | `parseInt` reads a radix literal as 0, so the literal is a bigint exactly when its value is not zero |
| LargeNumbers.DecimalStringRoundTrip | utils/bigint.ts:9-11 | `String(n)` parses back to `n`, either as the bigint `n` or as a number denoting `n`; the number case arises only when `n` is a double exactly or overflows to infinity (as an exact decimal; see `JsNumbers.ParseFloat` under Left out) |
| LargeNumbers.FractionFallsBackToFloat | utils/bigint.ts:2-10 | `BigInt` rejects "1.5", so the result is the `parseFloat` number 1.5 |
| LargeNumbers.ExponentFallsBackToFloat | utils/bigint.ts:2-10 | `BigInt` rejects "1e3", so the result is the `parseFloat` number 1 * 10^3 |
| LargeNumbers.TrailingJunkFallsBackToFloat | utils/bigint.ts:2-10 | `BigInt` rejects "12abc", so the result is the `parseFloat` number 12 |
| LargeNumbers.NoLeadingDigitGivesNaN | utils/bigint.ts:2-10 | text that, after leading whitespace, is empty or starts with no sign, digit, point or `I` makes `BigInt(NaN)` throw; `isBigInt` is false and the result is NaN |
| LargeNumbers.NoDigitsGiveNaN | utils/bigint.ts:2-10 | "" and "abc" are not bigints and give NaN |
| LargeNumbers.FirstUnsafeIntegerBecomesBigInt | utils/bigint.ts:3-10 | 2^53 + 1, the first integer `parseInt` rounds, comes back as the exact bigint 2^53 + 1 |
| LargeNumbers.HexLiteralBecomesBigInt | utils/bigint.ts:3-10 | "0x1A" is read as 0 by `parseInt` and as 26 by `BigInt`, so it becomes the bigint 26 |
| AssetConfig.Lookup | exchanges/nobitex/asset-config.ts:10-52 | exactly the five keys are present; base assets are rls and ﷼ to irr, usdt and تتر to usd, and بیت‌کوین to btc; root entries (exactly usdt and تتر) have multiplier 1 and no symbol; an entry with a symbol is not root; only ﷼ is inverted, with symbol USDTIRT and multiplier 10 |
| AssetConfig.RialsHasNoPricingRule | exchanges/nobitex/asset-config.ts:12-18 | "rls" is neither root nor symbol-priced |
| AssetConfig.LookupIsExact | exchanges/nobitex/asset-config.ts:45-52 | keys are matched exactly: the bitcoin key without its zero-width non-joiner, and "USDT" and "RLS", are absent |
| PricePattern.MatchAtIsSound | exchanges/nobitex/utils.ts:9-10 | a match the attempt at an index reports is an occurrence of the pattern there, with the unit running up to whitespace or the end |
| PricePattern.OccurrenceIsFound | exchanges/nobitex/utils.ts:9-10 | any occurrence of the pattern at an index is found by the attempt there, with the same price run and a unit at least as long |
| PricePattern.FindFromReportsAttempt | exchanges/nobitex/utils.ts:10 | the scan reports the successful attempt at its index, at or after the start |
| PricePattern.FindFromSkipsFailures | exchanges/nobitex/utils.ts:10 | starting the scan anywhere before its reported index gives the same report |
| PricePattern.FindFromStartIsFirstMatch | exchanges/nobitex/utils.ts:9-10 | the scan finds nothing exactly when the pattern occurs nowhere, and otherwise reports the leftmost occurrence |
| PricePattern.FirstMatchIsUnique | exchanges/nobitex/utils.ts:9-10 | the leftmost match with maximal runs is unique |
| PricePattern.FirstMatch | exchanges/nobitex/utils.ts:9-10 | `input.match(regex)` is null exactly when the pattern occurs nowhere; otherwise it is the leftmost occurrence |
| PricePattern.LaterTextIsIgnored | exchanges/nobitex/utils.ts:9-10 | text appended after the first match and the whitespace that ends it never changes the match |
| PricePattern.EarlierOccurrenceIsAbsent | exchanges/nobitex/utils.ts:9-10 | appending text creates no occurrence of the pattern before the first match |
| PricePattern.OccurrenceBeforePhraseStaysInside | exchanges/nobitex/utils.ts:9 | an occurrence starting before a phrase ends its price before that phrase's space, so with a one-character unit it lies inside the text |
| PricePattern.RemoveCommasKeepsOthers | exchanges/nobitex/utils.ts:16 | removing commas leaves no comma, and every other character occurs as often as before |
| PricePattern.RemoveCommasAppend | exchanges/nobitex/utils.ts:16 | comma removal works piece by piece, so the kept characters stay in order |
| PricePattern.RemoveCommasWithoutCommas | exchanges/nobitex/utils.ts:16 | a string without commas is unchanged |
| PricePattern.RemoveCommasOfRun | exchanges/nobitex/utils.ts:9-16 | a digit/comma run becomes a string of decimal digits |
| PricePattern.CapturedPrice | exchanges/nobitex/utils.ts:13-18 | for a digit/comma run, the price is the value of its digits with the commas removed, or NaN when the run is only commas |
| PricePattern.ExtractPriceAndUnit | exchanges/nobitex/utils.ts:5-27 | price and unit are both null or both present; they are null exactly when the pattern occurs nowhere; otherwise they are the leftmost match's price value and whole unit |
| PricePattern.CommaGroupedPrices | exchanges/nobitex/utils.ts:16-18 | "1,250" gives the price 1250, and a run of only commas gives NaN |
| PricePattern.PhraseAtStart | exchanges/nobitex/utils.ts:9-20 | a description that starts with the phrase, a price run, a space and a unit ending at whitespace or the end yields that price and unit |
| NobitexTransactions.Magnitude | exchanges/nobitex/utils.ts:36 | at most one leading minus is removed: a negative amount is "-" followed by the result, and any other amount is unchanged |
| NobitexTransactions.FormatTransaction | exchanges/nobitex/utils.ts:29-44 | sell exactly when the amount starts with "-", and buy otherwise; the asset is the base asset for a table key, and the currency otherwise; the quantity parses the amount without one minus; the balance parses the raw balance; the price is null; meta holds only the id and the description |
| NobitexTransactions.DigitsParseExactly | exchanges/nobitex/utils.ts:36-38 | an unsigned digit string parses to its exact value, as a bigint or as a number (as an exact decimal; see `JsNumbers.ParseFloat` under Left out) |
| NobitexTransactions.SignedDecimalAmount | exchanges/nobitex/utils.ts:34-36 | for a signed decimal amount the direction is sell exactly when the amount is negative, and the quantity has the exact value of the digits (as an exact decimal; see `JsNumbers.ParseFloat` under Left out) |
| NobitexTransactions.DoubleMinusKeepsOneSign | exchanges/nobitex/utils.ts:34-36 | "--5" is a sell whose quantity is the number -5 |
| NobitexTransactions.ProcessType | exchanges/nobitex/utils.ts:46-66 | only the type changes; buy when the buy marker occurs; sell when the sell marker occurs and the buy marker does not; deposit and withdrawal likewise down the order; with no marker the transaction is returned unchanged |
| NobitexTransactions.ProcessTypeIdempotent | exchanges/nobitex/utils.ts:46-66 | reclassifying a reclassified transaction changes nothing |
| NobitexTransactions.ProcessPrice | exchanges/nobitex/utils.ts:68-74 | only `meta`'s price and unit keys change; both are always written, both null exactly when the pattern occurs nowhere, and otherwise those of the leftmost match |
| NobitexTransactions.ProcessPriceIdempotent | exchanges/nobitex/utils.ts:68-74 | merging the hint a second time changes nothing |
| NobitexTransactions.ProcessTypeAndPriceCommute | exchanges/nobitex/utils.ts:46-74 | reclassification and hint merging can run in either order with the same result |
| NobitexTransactions.Normalize | exchanges/nobitex/utils.ts:29-74 | the three steps together: time, asset, quantity, balance, null price and meta come from the row, with the hint of its description; the buy marker forces a buy; with no marker the amount's sign decides |
| NobitexTransactions.SellMarkerOverridesSign | exchanges/nobitex/utils.ts:53-55 | with the sell marker and no buy marker the result is a sell, whatever the amount's sign |
| NobitexTransactions.BuyMarkerWinsOverSell | exchanges/nobitex/utils.ts:49-55 | whenever both the buy and the sell marker occur, in either order, the result is a buy |

## Left out

- `exchanges/nobitex/mod.ts` is not part of this model. It configures an HTTP client and makes two network calls; its only logic is `key.split("-")` and `parseFloat` on the market response, and `parsePossibleLargeNumber(wallet.balance)` (`exchanges/nobitex/mod.ts:51`, the function modelled here) on the wallet response.
- `errors/error-types.ts` and `errors/error-handler.ts` are not part of this model: they report to an error tracker and build HTTP responses.
- `interfaces/*.ts` and `exchanges/nobitex/types.ts` declare types only; their shapes appear as datatypes.
- `exchanges/nobitex/types.ts` does not declare `UserTransaction`, although `exchanges/nobitex/utils.ts:3` imports it from there. Its fields are taken from their uses in `formatTransaction` (`exchanges/nobitex/utils.ts:29-44`), and `id` is an integer.
- Transaction pagination and sync, candle fetching, price enrichment and alias-based asset resolution are implemented nowhere under `exchanges/nobitex/` or in `utils/bigint.ts`. `interfaces/transaction-fetcher.interface.ts` only declares `fetchUserTransactions`, and the `Nobitex` class in `exchanges/nobitex/mod.ts` implements only the balance and value fetchers.
- NobitexTransactions.FormatTransaction: `new Date(created_at)` is kept as the text it is built from (`Instant`), because date parsing depends on the host clock and locale.
- JsNumbers.ParseFloat: the result is the exact decimal the text denotes; the rounding of that decimal to a binary64 double (and so the overflow of a huge literal to Infinity) is left out.
- JsNumbers.ParseInt10: ECMAScript lets an implementation approximate the digits after the 20th significant one before rounding; the model rounds the exact value.
- JsNumbers.ParseInt10: the sign of a zero result (`parseInt("-0")` is -0) is not kept; `BigInt` maps both zeros to 0, so `isBigInt` is unaffected.
- Strings are sequences of Unicode code points, not UTF-16 code units. Indices differ from JavaScript's only past characters outside the Basic Multilingual Plane, and all markers, the phrase and the table keys lie inside it.
- AssetConfig.Lookup: `accuracy` is kept as the exact decimal written in the table, not as the double it denotes.
- Neither `exchanges/nobitex/utils.ts` nor `exchanges/nobitex/mod.ts` reads `isInverted`, `symbol`, `multiplier` or `accuracy`: `formatTransaction` uses only `baseAsset` (`exchanges/nobitex/utils.ts:30-35`). Price enrichment, which would read them, is not part of this model.
- NobitexTransactions.Normalize is a composition added for stating end-to-end facts. The code exports the three steps separately, and their parameter types chain them in this order.

=== FILE: asset_config.dfy ===
/**
 The Nobitex adapter's static pricing table: for each currency code the
 exchange reports, the canonical base asset and how its price is obtained.
 */
module AssetConfig {
  import opened Wrappers
  import opened JsNumbers

  /** One pricing rule (`AssetConfigType`). `accuracy` is the decimal
      1 * 10^-k written in the table. */
  datatype AssetConfigType = AssetConfigType(
    isInverted: Option<bool>,
    symbol: Option<string>,
    baseAsset: string,
    isRoot: bool,
    multiplier: int,
    accuracy: JsNumber)

  const Rials: string := "rls"
  const Tether: string := "usdt"
  /** U+FDFC, the rial sign. */
  const RialSign: string := "\U{FDFC}"
  /** Persian "tether". */
  const TetherPersian: string := "\U{062A}\U{062A}\U{0631}"
  /** Persian "bitcoin", spelled with a zero-width non-joiner (U+200C) after its third letter. */
  const BitcoinPersian: string := "\U{0628}\U{06CC}\U{062A}\U{200C}\U{06A9}\U{0648}\U{06CC}\U{0646}"

  /** 0.00000001 and 0.01. */
  const EightDecimals: JsNumber := Decimal(false, 1, -8)
  const TwoDecimals: JsNumber := Decimal(false, 1, -2)

  /** `configMap`: the five entries in the order they are set. */
  const ConfigMap: map<string, AssetConfigType> := map[
    Rials := AssetConfigType(Some(false), None, "irr", false, 1, EightDecimals),
    Tether := AssetConfigType(Some(false), None, "usd", true, 1, TwoDecimals),
    RialSign := AssetConfigType(Some(true), Some("USDTIRT"), "irr", false, 10, EightDecimals),
    TetherPersian := AssetConfigType(Some(false), None, "usd", true, 1, TwoDecimals),
    BitcoinPersian := AssetConfigType(Some(false), Some("BTCUSD"), "btc", false, 1, EightDecimals)
  ]

  /** The five keys of the table. */
  const ConfigKeys: set<string> := {Rials, Tether, RialSign, TetherPersian, BitcoinPersian}

  /** The base asset each key is recorded against, grouped by asset. */
  function BaseAssetFor(currency: string): string {
    if currency in {Rials, RialSign} then "irr"
    else if currency in {Tether, TetherPersian} then "usd"
    else "btc"
  }

  /** `configMap.get(currency)`: exact string equality on the code. */
  function Lookup(currency: string): (r: Option<AssetConfigType>)
    ensures r.Some? <==> currency in ConfigKeys
    ensures r.Some? ==> r.value.baseAsset == BaseAssetFor(currency)
    ensures r.Some? && r.value.isRoot ==> r.value.multiplier == 1 && r.value.symbol.None?
    ensures r.Some? && r.value.symbol.Some? ==> !r.value.isRoot
    ensures r.Some? && r.value.isInverted == Some(true) <==> currency == RialSign
    ensures currency == RialSign ==> r.Some? && r.value.symbol == Some("USDTIRT") && r.value.multiplier == 10
    ensures r.Some? && r.value.isRoot <==> currency in {Tether, TetherPersian}
  {
    if currency in ConfigMap then Some(ConfigMap[currency]) else None
  }

  /** "rls" is priced neither as a root asset nor through a market symbol, so
      the table does not give every entry exactly one of the two rules. */
  lemma RialsHasNoPricingRule()
    ensures Lookup(Rials).Some?
    ensures !Lookup(Rials).value.isRoot && Lookup(Rials).value.symbol.None?
  {
  }

  /** Keys are compared exactly: the bitcoin key without its zero-width
      non-joiner, or in another case, is not in the table. */
  lemma LookupIsExact()
    ensures Lookup("\U{0628}\U{06CC}\U{062A}\U{06A9}\U{0648}\U{06CC}\U{0646}").None?
    ensures Lookup("USDT").None? && Lookup("RLS").None?
  {
  }
}

=== FILE: js_numbers.dfy ===
/**
 The JavaScript numeric conversions that `parsePossibleLargeNumber` is built
 from: `parseInt(s, 10)`, `BigInt(string)`, `BigInt(number)` and `parseFloat`,
 together with the rounding of an integer to the nearest IEEE 754 double.

 A double is kept only where the adapter's behaviour depends on it: the
 integer `parseInt` produces (rounded exactly as binary64 rounds). The value
 `parseFloat` produces is kept as the exact decimal it reads; the rounding of
 that decimal to a double is left out.
 */
module JsNumbers {
  import opened Wrappers
  import opened Text

  const TwoTo52: nat := 4503599627370496
  const TwoTo53: nat := 9007199254740992
  /** Binary exponent of one unit in the last place of the largest finite
      doubles: the largest finite double is (2^53 - 1) * 2^971. */
  const MaxUlpExponent: nat := 971

  function Abs(n: int): nat {
    if n < 0 then -n else n
  }

  /** The integer with magnitude `m` and the given sign. */
  function Signed(negative: bool, m: nat): int {
    if negative then 0 - m else m
  }

  function Pow2(e: nat): (r: nat)
    ensures r >= 1
  {
    if e == 0 then 1 else 2 * Pow2(e - 1)
  }

  function Pow10(e: nat): (r: nat)
    ensures r >= 1
  {
    if e == 0 then 1 else 10 * Pow10(e - 1)
  }

  // ---------------------------------------------------------------------
  // Integers as doubles
  // ---------------------------------------------------------------------

  /** An integer-valued double, or an overflow to ±Infinity. */
  datatype DoubleInt = Finite(value: int) | Infinite(negative: bool)

  /** Number of halvings that bring `m` below 2^53: a double near `m` has
      units in the last place of 2^UlpExponent(m). */
  function UlpExponent(m: nat): nat
    decreases m
  {
    if m < TwoTo53 then 0 else 1 + UlpExponent(m / 2)
  }

  /** Number of units of size `unit` nearest to `m`, ties going to the even count. */
  function RoundToUnits(m: nat, unit: nat): nat
    requires unit >= 1
  {
    var q := m / unit;
    var r := m % unit;
    if 2 * r > unit || (2 * r == unit && q % 2 == 1) then q + 1 else q
  }

  /** Number of units in the last place (2^UlpExponent(m) each) nearest to `m`. */
  function RoundedUnits(m: nat): nat {
    RoundToUnits(m, Pow2(UlpExponent(m)))
  }

  /** Round to nearest, ties to even, of the magnitude `m` to 53 significant
      bits: the result (significand, exponent) stands for significand * 2^exponent,
      with the significand renormalised to 2^52 when rounding carries into the next binade. */
  function RoundMagnitude(m: nat): (nat, nat) {
    var e := UlpExponent(m);
    var rq := RoundedUnits(m);
    if rq == TwoTo53 then (TwoTo52, e + 1) else (rq, e)
  }

  /** One rounding step: choosing `q` or `q + 1` units by the remainder lands
      within half a unit of `q * unit + r`. */
  lemma RoundingStep(m: nat, unit: nat, q: nat, r: nat, up: bool)
    requires unit >= 1 && r < unit && m == q * unit + r
    requires up <==> 2 * r > unit || (2 * r == unit && q % 2 == 1)
    ensures 2 * Abs((if up then q + 1 else q) * unit - m) <= unit
  {
    if up {
      assert (q + 1) * unit == q * unit + unit;
    }
  }

  /** Rounding to whole units lands within half a unit of `m`. */
  lemma RoundToUnitsIsNearest(m: nat, unit: nat)
    requires unit >= 1
    ensures 2 * Abs(RoundToUnits(m, unit) * unit - m) <= unit
  {
    var q := m / unit;
    var r := m % unit;
    DivMod(m, unit);
    RoundingStep(m, unit, q, r, 2 * r > unit || (2 * r == unit && q % 2 == 1));
  }

  lemma RoundedUnitsAreNearest(m: nat)
    ensures 2 * Abs(RoundedUnits(m) * Pow2(UlpExponent(m)) - m) <= Pow2(UlpExponent(m))
  {
    RoundToUnitsIsNearest(m, Pow2(UlpExponent(m)));
  }

  lemma DivMod(m: nat, unit: nat)
    requires unit >= 1
    ensures m == (m / unit) * unit + m % unit && m % unit < unit
  {
  }

  /** Renormalising does not change the value. */
  lemma RoundMagnitudeValue(m: nat)
    ensures RoundMagnitude(m).0 * Pow2(RoundMagnitude(m).1) == RoundedUnits(m) * Pow2(UlpExponent(m))
  {
    var e := UlpExponent(m);
    var unit := Pow2(e);
    assert Pow2(e + 1) == 2 * unit;
    assert TwoTo52 * (2 * unit) == TwoTo53 * unit;
  }

  /** The rounded magnitude lies within half a unit in the last place of `m`. */
  lemma RoundMagnitudeIsNearest(m: nat)
    ensures 2 * Abs(RoundMagnitude(m).0 * Pow2(RoundMagnitude(m).1) - m) <= Pow2(UlpExponent(m))
  {
    RoundedUnitsAreNearest(m);
    RoundMagnitudeValue(m);
  }

  /** Rounding a positive magnitude never gives zero. */
  lemma RoundMagnitudePositive(m: nat)
    ensures m > 0 ==> RoundMagnitude(m).0 > 0
  {
    var unit := Pow2(UlpExponent(m));
    if m == 0 {
    } else if m < TwoTo53 {
      assert unit == 1;
    } else {
      UlpExponentBinade(m);
      assert m / unit >= 1 by {
        DivAtLeastOne(m, unit, TwoTo52 * unit);
      }
    }
  }

  lemma DivAtLeastOne(m: nat, unit: nat, lower: nat)
    requires unit >= 1 && lower >= unit && m >= lower
    ensures m / unit >= 1
  {
  }

  /** Integers of magnitude at most 2^53 are represented exactly. */
  lemma RoundMagnitudeExact(m: nat)
    requires m <= TwoTo53
    ensures var (sig, e) := RoundMagnitude(m); sig * Pow2(e) == m && e <= 1
  {
    if m == TwoTo53 {
      assert UlpExponent(m) == 1;
    } else {
      assert UlpExponent(m) == 0;
    }
  }

  /** The binary64 value of the integer `n` (the Number(n) conversion): round
      to nearest with ties to even; a magnitude that rounds to 2^1024 or more
      becomes ±Infinity. */
  function RoundToDouble(n: int): (d: DoubleInt)
    ensures Abs(n) <= TwoTo53 ==> d == Finite(n)
    ensures d.Finite? ==> 2 * Abs(d.value - n) <= Pow2(UlpExponent(Abs(n)))
    ensures d.Finite? ==> (d.value < 0 <==> n < 0)
    ensures d.Infinite? ==> d.negative == (n < 0)
    ensures d.Finite? ==> Abs(d.value) % Pow2(UlpExponent(Abs(n))) == 0
    ensures d.Finite? && 2 * Abs(d.value - n) == Pow2(UlpExponent(Abs(n))) ==>
      (Abs(d.value) / Pow2(UlpExponent(Abs(n)))) % 2 == 0
    ensures d.Finite? ==> Abs(d.value) <= (TwoTo53 - 1) * Pow2(MaxUlpExponent)
    ensures d.Infinite? <==> Abs(n) >= (2 * TwoTo53 - 1) * Pow2(MaxUlpExponent - 1)
  {
    RoundFiniteFacts(n);
    RoundFiniteGrid(n);
    RoundFiniteRange(n);
    RoundFinite(n)
  }

  function RoundFinite(n: int): DoubleInt {
    var (sig, e) := RoundMagnitude(Abs(n));
    if e > MaxUlpExponent then Infinite(n < 0) else Finite(Signed(n < 0, sig * Pow2(e)))
  }

  lemma RoundFiniteFacts(n: int)
    ensures Abs(n) <= TwoTo53 ==> RoundFinite(n) == Finite(n)
    ensures RoundFinite(n).Finite? ==> 2 * Abs(RoundFinite(n).value - n) <= Pow2(UlpExponent(Abs(n)))
    ensures RoundFinite(n).Finite? ==> (RoundFinite(n).value < 0 <==> n < 0)
    ensures RoundFinite(n).Infinite? ==> RoundFinite(n).negative == (n < 0)
  {
    var m := Abs(n);
    var (sig, e) := RoundMagnitude(m);
    var v := sig * Pow2(e);
    RoundMagnitudeIsNearest(m);
    assert 2 * Abs(v - m) <= Pow2(UlpExponent(m));
    if m <= TwoTo53 {
      RoundMagnitudeExact(m);
      assert v == m;
    }
    RoundMagnitudePositive(m);
    assert m > 0 ==> v > 0 by {
      if m > 0 {
        PositiveProduct(sig, Pow2(e));
      }
    }
    assert Abs(Signed(n < 0, v) - n) == Abs(v - m);
  }

  lemma RoundFiniteGrid(n: int)
    ensures RoundFinite(n).Finite? ==> Abs(RoundFinite(n).value) % Pow2(UlpExponent(Abs(n))) == 0
    ensures RoundFinite(n).Finite? && 2 * Abs(RoundFinite(n).value - n) == Pow2(UlpExponent(Abs(n))) ==>
      (Abs(RoundFinite(n).value) / Pow2(UlpExponent(Abs(n)))) % 2 == 0
  {
    var m := Abs(n);
    var v := RoundMagnitude(m).0 * Pow2(RoundMagnitude(m).1);
    if RoundMagnitude(m).1 <= MaxUlpExponent {
      assert RoundFinite(n) == Finite(Signed(n < 0, v));
      RoundMagnitudeOnGrid(m);
      SignedMagnitude(n, v);
    }
  }

  lemma RoundFiniteRange(n: int)
    ensures RoundFinite(n).Finite? ==> Abs(RoundFinite(n).value) <= (TwoTo53 - 1) * Pow2(MaxUlpExponent)
    ensures RoundFinite(n).Infinite? <==> Abs(n) >= (2 * TwoTo53 - 1) * Pow2(MaxUlpExponent - 1)
  {
    var m := Abs(n);
    var v := RoundMagnitude(m).0 * Pow2(RoundMagnitude(m).1);
    RoundMagnitudeOverflow(m);
    if RoundMagnitude(m).1 > MaxUlpExponent {
      assert RoundFinite(n) == Infinite(n < 0);
    } else {
      assert RoundFinite(n) == Finite(Signed(n < 0, v));
      RoundMagnitudeRange(m);
      SignedMagnitude(n, v);
    }
  }

  /** Giving a magnitude the sign of `n` keeps its distance to `n` and its units. */
  lemma SignedMagnitude(n: int, v: nat)
    ensures Abs(Signed(n < 0, v)) == v && Abs(Signed(n < 0, v) - n) == Abs(v - Abs(n))
  {
  }

  /** A rounded magnitude within the exponent range is at most the largest finite double. */
  lemma RoundMagnitudeRange(m: nat)
    ensures RoundMagnitude(m).1 <= MaxUlpExponent ==>
      RoundMagnitude(m).0 * Pow2(RoundMagnitude(m).1) <= (TwoTo53 - 1) * Pow2(MaxUlpExponent)
  {
    var (sig, e) := RoundMagnitude(m);
    if e <= MaxUlpExponent {
      RoundMagnitudeSignificand(m);
      Pow2Monotone(e, MaxUlpExponent);
      MulMonotone(sig, TwoTo53 - 1, Pow2(e));
      MulMonotone(Pow2(e), Pow2(MaxUlpExponent), TwoTo53 - 1);
    }
  }

  lemma PositiveProduct(a: nat, b: nat)
    requires a > 0 && b > 0
    ensures a * b > 0
  {
  }

  lemma {:induction false} Pow2Monotone(a: nat, b: nat)
    requires a <= b
    ensures Pow2(a) <= Pow2(b)
    decreases b - a
  {
    if a < b {
      Pow2Monotone(a, b - 1);
    }
  }

  lemma MulMonotone(a: nat, b: nat, c: nat)
    requires a <= b
    ensures a * c <= b * c
  {
  }

  /** A multiple of `unit` divides back exactly. */
  lemma MultipleDivMod(k: nat, unit: nat)
    requires unit >= 1
    ensures (k * unit) % unit == 0 && (k * unit) / unit == k
  {
    var q := (k * unit) / unit;
    DivMod(k * unit, unit);
    if k > q {
      MulMonotone(1, k - q, unit);
    } else if k < q {
      MulMonotone(1, q - k, unit);
    }
  }

  /** A tie is broken towards the even number of units. */
  lemma RoundToUnitsTiesToEven(m: nat, unit: nat)
    requires unit >= 1
    ensures 2 * Abs(RoundToUnits(m, unit) * unit - m) == unit ==> RoundToUnits(m, unit) % 2 == 0
  {
    var q := m / unit;
    var r := m % unit;
    DivMod(m, unit);
    assert (q + 1) * unit == q * unit + unit;
  }

  /** Below 2^53 units in the last place, the whole units of `m` number fewer than 2^53. */
  lemma WholeUnitsBelowTwoTo53(m: nat)
    ensures m / Pow2(UlpExponent(m)) < TwoTo53
  {
    var unit := Pow2(UlpExponent(m));
    var q := m / unit;
    UlpExponentBound(m);
    DivMod(m, unit);
    if q >= TwoTo53 {
      MulMonotone(TwoTo53, q, unit);
    }
  }

  /** The significand of a rounded magnitude has at most 53 bits. */
  lemma RoundMagnitudeSignificand(m: nat)
    ensures RoundMagnitude(m).0 < TwoTo53
  {
    WholeUnitsBelowTwoTo53(m);
  }

  /** The rounded magnitude is a whole number of units in the last place of
      `m`, and an even number of them when `m` lies halfway between two. */
  lemma RoundMagnitudeOnGrid(m: nat)
    ensures var v := RoundMagnitude(m).0 * Pow2(RoundMagnitude(m).1);
      var unit := Pow2(UlpExponent(m));
      v % unit == 0 && (2 * Abs(v - m) == unit ==> (v / unit) % 2 == 0)
  {
    var unit := Pow2(UlpExponent(m));
    RoundMagnitudeValue(m);
    MultipleDivMod(RoundedUnits(m), unit);
    RoundToUnitsTiesToEven(m, unit);
  }

  /** The rounded magnitude overflows the largest exponent exactly from
      (2^54 - 1) * 2^970, halfway between the largest finite double and 2^1024. */
  lemma RoundMagnitudeOverflow(m: nat)
    ensures RoundMagnitude(m).1 > MaxUlpExponent <==> m >= (2 * TwoTo53 - 1) * Pow2(MaxUlpExponent - 1)
  {
    var e := UlpExponent(m);
    var unit := Pow2(e);
    var half := Pow2(MaxUlpExponent - 1);
    UlpExponentBound(m);
    if e > MaxUlpExponent {
      UlpExponentBinade(m);
      Pow2Monotone(MaxUlpExponent + 1, e);
      assert Pow2(MaxUlpExponent + 1) == 4 * half;
      MulMonotone(4 * half, unit, TwoTo52);
    } else if e < MaxUlpExponent {
      Pow2Monotone(e, MaxUlpExponent - 1);
      MulMonotone(unit, half, TwoTo53);
    } else {
      assert unit == 2 * half;
      OverflowAtLargestExponent(m, half);
    }
  }

  lemma OverflowAtLargestExponent(m: nat, half: nat)
    requires half >= 1 && m < TwoTo53 * (2 * half)
    ensures RoundToUnits(m, 2 * half) == TwoTo53 <==> m >= (2 * TwoTo53 - 1) * half
  {
    var unit := 2 * half;
    var q := m / unit;
    var r := m % unit;
    DivMod(m, unit);
    if q >= TwoTo53 {
      MulMonotone(TwoTo53, q, unit);
    }
    if q + 1 < TwoTo53 {
      MulMonotone(q + 1, TwoTo53 - 1, unit);
      assert (q + 1) * unit == q * unit + unit;
    }
  }

  /** Halving `m` UlpExponent(m) times leaves a value below 2^53. */
  lemma {:induction false} UlpExponentBound(m: nat)
    ensures m < TwoTo53 * Pow2(UlpExponent(m))
    decreases m
  {
    if m >= TwoTo53 {
      UlpExponentBound(m / 2);
    }
  }

  /** Halving `m` UlpExponent(m) times leaves a value in [2^52, 2^53) once `m` is at least 2^53. */
  lemma {:induction false} UlpExponentBinade(m: nat)
    requires m >= TwoTo53
    ensures TwoTo52 * Pow2(UlpExponent(m)) <= m
    decreases m
  {
    if m / 2 >= TwoTo53 {
      UlpExponentBinade(m / 2);
    }
  }

  // ---------------------------------------------------------------------
  // Digits
  // ---------------------------------------------------------------------

  /** Value of a digit character in radices up to 36 (`0`-`9`, then letters
      of either case); 36 for any other character. */
  function DigitValue(c: char): nat {
    if '0' <= c <= '9' then c as nat - '0' as nat
    else if 'a' <= c <= 'z' then c as nat - 'a' as nat + 10
    else if 'A' <= c <= 'Z' then c as nat - 'A' as nat + 10
    else 36
  }

  predicate AllDigitsIn(d: string, radix: nat) {
    forall k :: 0 <= k < |d| ==> DigitValue(d[k]) < radix
  }

  /** Value of a digit string in `radix`, most significant digit first. */
  function ValueIn(d: string, radix: nat): nat {
    if |d| == 0 then 0 else ValueIn(d[..|d| - 1], radix) * radix + DigitValue(d[|d| - 1])
  }

  lemma DecimalDigitIsRadixTen(c: char)
    ensures IsDecimalDigit(c) <==> DigitValue(c) < 10
  {
  }

  function DigitChar(v: nat): (c: char)
    requires v < 10
    ensures IsDecimalDigit(c) && DigitValue(c) == v
  {
    ('0' as int + v) as char
  }

  /** Canonical decimal rendering of a natural number. */
  function NatDigits(n: nat): (d: string)
    ensures |d| > 0
    ensures forall k :: 0 <= k < |d| ==> IsDecimalDigit(d[k])
    ensures ValueIn(d, 10) == n
    ensures |d| > 1 ==> d[0] != '0'
    decreases n
  {
    if n < 10 then [DigitChar(n)]
    else
      var prefix := NatDigits(n / 10);
      var d := prefix + [DigitChar(n % 10)];
      assert d[..|d| - 1] == prefix;
      d
  }

  /** `String(n)` for an integer `n`: a minus sign for negatives, then the canonical digits. */
  function DecimalString(n: int): string {
    if n < 0 then "-" + NatDigits(-n) else NatDigits(n)
  }

  /** A leading `+` or `-` is consumed; the flag records a `-`. */
  function SplitSign(t: string): (bool, string) {
    if |t| > 0 && (t[0] == '-' || t[0] == '+') then (t[0] == '-', t[1..]) else (false, t)
  }

  // ---------------------------------------------------------------------
  // parseInt(s, 10)
  // ---------------------------------------------------------------------

  /** `parseInt(s, 10)`: after leading whitespace and one optional sign, the
      longest run of decimal digits, converted to the nearest double; None
      stands for NaN (no digit there). The sign of a zero is not kept. */
  function ParseInt10(s: string): Option<DoubleInt> {
    var (negative, body) := SplitSign(TrimStart(s));
    var e := RunEnd(body, 0, IsDecimalDigit);
    if e == 0 then None
    else Some(RoundToDouble(Signed(negative, ValueIn(body[..e], 10))))
  }

  // ---------------------------------------------------------------------
  // BigInt(string) and BigInt(number)
  // ---------------------------------------------------------------------

  /** Radix named by the letter after a leading `0` in a non-decimal literal. */
  function RadixOfPrefix(c: char): Option<nat> {
    if c == 'x' || c == 'X' then Some(16)
    else if c == 'o' || c == 'O' then Some(8)
    else if c == 'b' || c == 'B' then Some(2)
    else None
  }

  predicate HasRadixPrefix(t: string) {
    |t| >= 2 && t[0] == '0' && RadixOfPrefix(t[1]).Some?
  }

  /** `BigInt(s)` for a string: surrounding whitespace is ignored, nothing
      left means 0, otherwise the rest must be a decimal integer with an
      optional sign or an unsigned `0x`/`0o`/`0b` literal. None stands for the
      SyntaxError thrown on anything else. */
  function StringToBigInt(s: string): Option<int> {
    var t := Trim(s);
    if |t| == 0 then Some(0)
    else if HasRadixPrefix(t) then
      var radix := RadixOfPrefix(t[1]).value;
      var digits := t[2..];
      if |digits| > 0 && AllDigitsIn(digits, radix) then Some(ValueIn(digits, radix)) else None
    else
      var (negative, digits) := SplitSign(t);
      if |digits| > 0 && AllDigitsIn(digits, 10) then Some(Signed(negative, ValueIn(digits, 10))) else None
  }

  /** `BigInt(x)` for the number `parseInt` produced: NaN and ±Infinity throw
      a RangeError (None); an integral double converts exactly. */
  function NumberToBigInt(x: Option<DoubleInt>): (r: Option<int>)
    ensures r.Some? <==> x.Some? && x.value.Finite?
    ensures r.Some? ==> r.value == x.value.value
  {
    match x
    case Some(Finite(v)) => Some(v)
    case _ => None
  }

  // ---------------------------------------------------------------------
  // parseFloat
  // ---------------------------------------------------------------------

  /** A `parseFloat` result. Decimal(negative, mantissa, exponent) stands for
      the double nearest (-1)^negative * mantissa * 10^exponent. */
  datatype JsNumber = NaN | Infinity(negative: bool) | Decimal(negative: bool, mantissa: nat, exponent: int)

  /** `x` is a decimal whose exact value is the integer `n`. */
  predicate Denotes(x: JsNumber, n: int) {
    x.Decimal? &&
    if x.exponent >= 0 then Signed(x.negative, x.mantissa) * Pow10(x.exponent) == n
    else Signed(x.negative, x.mantissa) == n * Pow10(-x.exponent)
  }

  /** The exponent part `e`/`E`, optional sign, digits, starting at `j`; None
      when there is no complete exponent there. */
  function ExponentAt(u: string, j: nat): Option<int>
    requires j <= |u|
  {
    if j < |u| && (u[j] == 'e' || u[j] == 'E') then
      var (negative, rest) := SplitSign(u[j + 1..]);
      var e := RunEnd(rest, 0, IsDecimalDigit);
      if e == 0 then None else Some(Signed(negative, ValueIn(rest[..e], 10)))
    else None
  }

  /** `parseFloat(s)`: after leading whitespace, the longest prefix that is a
      signed `Infinity` or a decimal literal (integer digits, an optional
      point with fraction digits, at least one digit in all, an optional
      exponent); NaN when there is none. */
  function ParseFloat(s: string): JsNumber {
    var (negative, u) := SplitSign(TrimStart(s));
    UnsignedFloat(negative, u)
  }

  /** `parseFloat` after the sign: `u` is what follows it. */
  function UnsignedFloat(negative: bool, u: string): JsNumber {
    if HasPrefixAt(u, 0, "Infinity") then Infinity(negative)
    else
      var i := RunEnd(u, 0, IsDecimalDigit);
      var hasPoint := i < |u| && u[i] == '.';
      var j := if hasPoint then RunEnd(u, i + 1, IsDecimalDigit) else i;
      var fraction := if hasPoint then u[i + 1..j] else "";
      if i == 0 && |fraction| == 0 then NaN
      else
        var exponent := ExponentAt(u, j).GetOr(0);
        Decimal(negative, ValueIn(u[..i] + fraction, 10), exponent - |fraction|)
  }

  /** A digit run followed by neither a point nor an exponent is read as an
      integer with exponent 0. */
  lemma UnsignedFloatOfDigits(negative: bool, u: string, n: nat)
    requires 0 < n <= |u| && RunEnd(u, 0, IsDecimalDigit) == n
    requires n < |u| ==> u[n] != '.' && u[n] != 'e' && u[n] != 'E'
    ensures UnsignedFloat(negative, u) == Decimal(negative, ValueIn(u[..n], 10), 0)
  {
    assert !HasPrefixAt(u, 0, "Infinity") by {
      assert IsDecimalDigit(u[0]);
    }
    assert u[..n] + "" == u[..n];
  }

  /** Digits, a point and fraction digits, followed by no exponent, are read
      as the integer of all the digits scaled down by the fraction's length. */
  lemma UnsignedFloatOfFraction(negative: bool, u: string, i: nat, j: nat)
    requires 0 < i < j <= |u| && u[i] == '.'
    requires RunEnd(u, 0, IsDecimalDigit) == i && RunEnd(u, i + 1, IsDecimalDigit) == j
    requires j < |u| ==> u[j] != 'e' && u[j] != 'E'
    ensures UnsignedFloat(negative, u) == Decimal(negative, ValueIn(u[..i] + u[i + 1..j], 10), i + 1 - j)
  {
    assert !HasPrefixAt(u, 0, "Infinity") by {
      assert IsDecimalDigit(u[0]);
    }
  }

  // ---------------------------------------------------------------------
  // The three parsers on a decimal integer
  // ---------------------------------------------------------------------

  /** `t` is an optional sign followed by at least one decimal digit. */
  predicate IsDecimalInteger(t: string) {
    var (_, digits) := SplitSign(t);
    |digits| > 0 && forall k :: 0 <= k < |digits| ==> IsDecimalDigit(digits[k])
  }

  /** The integer a decimal integer text denotes. */
  function DecimalIntegerValue(t: string): int
    requires IsDecimalInteger(t)
  {
    var (negative, digits) := SplitSign(t);
    Signed(negative, ValueIn(digits, 10))
  }

  /** After leading whitespace, `s` is its trimmed text followed only by whitespace. */
  lemma TrimStartIsTrimThenSpace(s: string)
    ensures TrimStart(s) == Trim(s) + TrimStart(s)[|Trim(s)|..]
    ensures forall k :: |Trim(s)| <= k < |TrimStart(s)| ==> IsWhitespace(TrimStart(s)[k])
  {
  }

  /** Whatever follows a decimal integer once leading whitespace is skipped:
      the sign is the same and the digit run ends where the integer ends. */
  lemma DigitRunOfDecimalInteger(s: string)
    requires IsDecimalInteger(Trim(s))
    ensures var (negative, body) := SplitSign(TrimStart(s));
      var (negative', digits) := SplitSign(Trim(s));
      && negative == negative'
      && RunEnd(body, 0, IsDecimalDigit) == |digits|
      && body[..|digits|] == digits
      && (|digits| < |body| ==> IsWhitespace(body[|digits|]))
  {
    var t := TrimStart(s);
    var tr := Trim(s);
    TrimStartIsTrimThenSpace(s);
    assert t[..|tr|] == tr;
    DigitRunOfPadded(tr, t);
  }

  /** The digit run of a decimal integer `tr` followed by whitespace in `t`. */
  lemma DigitRunOfPadded(tr: string, t: string)
    requires IsDecimalInteger(tr)
    requires |tr| <= |t| && t[..|tr|] == tr
    requires |tr| < |t| ==> IsWhitespace(t[|tr|])
    ensures var (negative, body) := SplitSign(t);
      var (negative', digits) := SplitSign(tr);
      && negative == negative'
      && RunEnd(body, 0, IsDecimalDigit) == |digits|
      && body[..|digits|] == digits
      && (|digits| < |body| ==> IsWhitespace(body[|digits|]))
  {
    var (negative, body) := SplitSign(t);
    var (negative', digits) := SplitSign(tr);
    var signLength := |tr| - |digits|;
    assert t[0] == tr[0];
    assert body == t[signLength..];
    assert digits == tr[signLength..];
    assert body[..|digits|] == digits;
    RunOfCopy(body, 0, digits, IsDecimalDigit);
    if |digits| < |body| {
      assert body[|digits|] == t[|tr|];
    }
    RunEndIs(body, 0, |digits|, IsDecimalDigit);
  }

  /** Digits with an optional minus sign in front form a decimal integer,
      unchanged by trimming, with the digits' value and that sign. */
  lemma SignedDigitsAreDecimalInteger(negative: bool, d: string)
    requires |d| > 0 && forall k :: 0 <= k < |d| ==> IsDecimalDigit(d[k])
    ensures var t := if negative then "-" + d else d;
      && Trim(t) == t
      && IsDecimalInteger(t)
      && DecimalIntegerValue(t) == Signed(negative, ValueIn(d, 10))
  {
    var t := if negative then "-" + d else d;
    assert SplitSign(t) == (negative, d);
    assert IsDecimalInteger(t);
    assert IsDecimalDigit(t[|t| - 1]) by {
      assert t[|t| - 1] == d[|d| - 1];
    }
    assert !IsWhitespace(t[0]) by {
      assert t[0] == '-' || t[0] == d[0];
    }
    TrimOfTrimmed(t);
  }

  /** `String(n)` is a decimal integer, unchanged by trimming, whose value is `n`. */
  lemma DecimalStringIsDecimalInteger(n: int)
    ensures Trim(DecimalString(n)) == DecimalString(n)
    ensures IsDecimalInteger(DecimalString(n)) && DecimalIntegerValue(DecimalString(n)) == n
  {
    SignedDigitsAreDecimalInteger(n < 0, NatDigits(Abs(n)));
  }

  /** `parseInt(s, 10)` on a decimal integer is the nearest double to its value. */
  lemma ParseIntOfDecimalInteger(s: string)
    requires IsDecimalInteger(Trim(s))
    ensures ParseInt10(s) == Some(RoundToDouble(DecimalIntegerValue(Trim(s))))
  {
    DigitRunOfDecimalInteger(s);
  }

  /** `BigInt(s)` on a decimal integer is its exact value. */
  lemma BigIntOfDecimalInteger(s: string)
    requires IsDecimalInteger(Trim(s))
    ensures StringToBigInt(s) == Some(DecimalIntegerValue(Trim(s)))
  {
    var tr := Trim(s);
    var (negative, digits) := SplitSign(tr);
    forall k | 0 <= k < |digits|
      ensures DigitValue(digits[k]) < 10
    {
      DecimalDigitIsRadixTen(digits[k]);
    }
  }

  /** `parseFloat(s)` on a decimal integer reads the same digits with exponent 0. */
  lemma ParseFloatOfDecimalInteger(s: string)
    requires IsDecimalInteger(Trim(s))
    ensures var (negative, digits) := SplitSign(Trim(s));
      ParseFloat(s) == Decimal(negative, ValueIn(digits, 10), 0)
    ensures Denotes(ParseFloat(s), DecimalIntegerValue(Trim(s)))
  {
    DigitRunOfDecimalInteger(s);
    var (negative, u) := SplitSign(TrimStart(s));
    var (_, digits) := SplitSign(Trim(s));
    var n := |digits|;
    if n < |u| {
      assert !IsDecimalDigit(u[n]);
      assert u[n] != '.' && u[n] != 'e' && u[n] != 'E';
    }
    UnsignedFloatOfDigits(negative, u, n);
  }

  /** `parseFloat` of a string of decimal digits is their value, and of the
      empty string NaN. */
  lemma ParseFloatOfDigits(d: string)
    requires forall k :: 0 <= k < |d| ==> IsDecimalDigit(d[k])
    ensures |d| == 0 ==> ParseFloat(d) == NaN
    ensures |d| > 0 ==> ParseFloat(d) == Decimal(false, ValueIn(d, 10), 0)
  {
    if |d| > 0 {
      SignedDigitsAreDecimalInteger(false, d);
      assert Trim(d) == d;
      assert SplitSign(d) == (false, d);
      ParseFloatOfDecimalInteger(d);
    } else {
      assert TrimStart(d) == d;
      assert SplitSign(d) == (false, d);
      assert !HasPrefixAt(d, 0, "Infinity");
      RunEndIs(d, 0, 0, IsDecimalDigit);
    }
  }
}

=== FILE: large_numbers.dfy ===
/**
 `isBigInt` and `parsePossibleLargeNumber`: a numeric string from the
 exchange becomes a bigint when `parseInt` reads a finite number and
 `BigInt(value)` accepts the text with a different value, and the
 `parseFloat` number otherwise.
 */
module LargeNumbers {
  import opened Wrappers
  import opened Text
  import opened JsNumbers

  /** `bigint | number`. */
  datatype Numeric = BigIntValue(value: int) | NumberValue(number: JsNumber)

  /** `isBigInt(value)`: `BigInt(parseInt(value, 10)) !== BigInt(value)`,
      with any exception turned into false. The left operand is evaluated
      first, so a NaN or infinite `parseInt` throws before `BigInt(value)` runs. */
  predicate IsBigInt(value: string) {
    match NumberToBigInt(ParseInt10(value))
    case None => false
    case Some(p) =>
      match StringToBigInt(value)
      case None => false
      case Some(b) => p != b
  }

  /** `parsePossibleLargeNumber(value)`: a bigint only for a `0x`/`0o`/`0b`
      literal or a decimal integer beyond 2^53 in magnitude, holding the value
      `BigInt` reads; otherwise `parseFloat`'s number, which denotes a decimal
      integer exactly. */
  function ParsePossibleLargeNumber(value: string): (r: Numeric)
    ensures r.BigIntValue? <==> IsBigInt(value)
    ensures r.BigIntValue? ==> StringToBigInt(value) == Some(r.value) && ParseInt10(value) != Some(Finite(r.value))
    ensures r.BigIntValue? ==>
      || HasRadixPrefix(Trim(value))
      || (&& IsDecimalInteger(Trim(value))
          && Abs(DecimalIntegerValue(Trim(value))) > TwoTo53
          && r.value == DecimalIntegerValue(Trim(value)))
    ensures r.NumberValue? ==> r.number == ParseFloat(value)
    ensures r.NumberValue? && IsDecimalInteger(Trim(value)) ==> Denotes(r.number, DecimalIntegerValue(Trim(value)))
  {
    BigIntSources(value);
    if IsBigInt(value) then BigIntValue(StringToBigInt(value).value) else NumberValue(ParseFloat(value))
  }

  /** What `isBigInt` accepts: a `0x`/`0o`/`0b` literal, or a decimal integer
      that `parseInt` cannot hold exactly, which `BigInt` reads exactly. */
  lemma BigIntSources(value: string)
    ensures IsBigInt(value) ==>
      || HasRadixPrefix(Trim(value))
      || (&& IsDecimalInteger(Trim(value))
          && Abs(DecimalIntegerValue(Trim(value))) > TwoTo53
          && StringToBigInt(value) == Some(DecimalIntegerValue(Trim(value))))
    ensures IsDecimalInteger(Trim(value)) ==> Denotes(ParseFloat(value), DecimalIntegerValue(Trim(value)))
  {
    if IsDecimalInteger(Trim(value)) {
      ParseIntOfDecimalInteger(value);
      BigIntOfDecimalInteger(value);
      ParseFloatOfDecimalInteger(value);
    }
  }

  /** A decimal integer (surrounding whitespace allowed) becomes a bigint
      exactly when it is a finite double other than itself, i.e. when
      `parseInt` rounds it; either way the result has the integer's value. */
  lemma DecimalIntegerIsExact(s: string)
    requires IsDecimalInteger(Trim(s))
    ensures var n := DecimalIntegerValue(Trim(s));
      var r := ParsePossibleLargeNumber(s);
      && (IsBigInt(s) <==> RoundToDouble(n).Finite? && RoundToDouble(n).value != n)
      && (r.BigIntValue? ==> r.value == n)
      && (r.NumberValue? ==> Denotes(r.number, n))
  {
    ParseIntOfDecimalInteger(s);
    BigIntOfDecimalInteger(s);
    ParseFloatOfDecimalInteger(s);
  }

  /** Up to 2^53 in magnitude `parseInt` is exact, so a decimal integer stays
      a number equal to itself. */
  lemma SafeIntegerStaysNumber(s: string)
    requires IsDecimalInteger(Trim(s))
    requires Abs(DecimalIntegerValue(Trim(s))) <= TwoTo53
    ensures !IsBigInt(s)
    ensures ParsePossibleLargeNumber(s).NumberValue?
    ensures Denotes(ParsePossibleLargeNumber(s).number, DecimalIntegerValue(Trim(s)))
  {
    DecimalIntegerIsExact(s);
  }

  /** `parseInt(s, 10)` stops at the letter of a `0x`/`0o`/`0b` prefix and
      reads 0, so such a literal is a bigint exactly when it is not zero. */
  lemma RadixLiteralIsBigIntUnlessZero(s: string)
    requires HasRadixPrefix(Trim(s))
    requires StringToBigInt(s).Some?
    ensures IsBigInt(s) <==> StringToBigInt(s).value != 0
  {
    var t := TrimStart(s);
    TrimStartIsTrimThenSpace(s);
    assert t[0] == '0' && t[1] == Trim(s)[1];
    assert SplitSign(t) == (false, t);
    RunEndIs(t, 0, 1, IsDecimalDigit);
    assert t[..1] == "0";
    assert ValueIn(t[..1], 10) == 0 by {
      assert t[..1][..0] == [];
    }
    assert ParseInt10(s) == Some(Finite(0));
  }

  /** Every integer written out in decimal parses back to itself: as a bigint,
      or as a number that denotes it and is a double exactly or overflows. */
  lemma {:induction false} DecimalStringRoundTrip(n: int)
    ensures var r := ParsePossibleLargeNumber(DecimalString(n));
      || r == BigIntValue(n)
      || (r.NumberValue? && Denotes(r.number, n) && (RoundToDouble(n) == Finite(n) || RoundToDouble(n).Infinite?))
  {
    DecimalStringIsDecimalInteger(n);
    DecimalIntegerIsExact(DecimalString(n));
  }

  /** Digit strings of the examples below, evaluated digit by digit. */
  lemma SmallValues()
    ensures ValueIn("15", 10) == 15 && ValueIn("12", 10) == 12 && ValueIn("1", 10) == 1
    ensures ValueIn("3", 10) == 3 && ValueIn("1A", 16) == 26
  {
    assert "15"[..1] == "1" && "12"[..1] == "1" && "1A"[..1] == "1";
    assert "1"[..0] == "" && "3"[..0] == "";
  }

  /** Text that `BigInt` rejects is never a bigint: it becomes `parseFloat`'s number. */
  lemma RejectedByBigIntIsFloat(s: string)
    requires StringToBigInt(s) == None
    ensures ParsePossibleLargeNumber(s) == NumberValue(ParseFloat(s))
  {
  }

  /** `BigInt` rejects a fraction, so "1.5" stays the `parseFloat` number 1.5. */
  lemma FractionFallsBackToFloat()
    ensures ParsePossibleLargeNumber("1.5") == NumberValue(Decimal(false, 15, -1))
  {
    FractionIsNoBigInt();
    FractionParsesAsFloat();
    RejectedByBigIntIsFloat("1.5");
  }

  lemma FractionIsNoBigInt()
    ensures StringToBigInt("1.5") == None
  {
    var a := "1.5";
    TrimOfTrimmed(a);
    assert SplitSign(a) == (false, a);
    assert DigitValue(a[1]) == 36;
  }

  lemma FractionParsesAsFloat()
    ensures ParseFloat("1.5") == Decimal(false, 15, -1)
  {
    SmallValues();
    var a := "1.5";
    TrimOfTrimmed(a);
    assert SplitSign(a) == (false, a);
    RunEndIs(a, 0, 1, IsDecimalDigit);
    RunEndIs(a, 2, 3, IsDecimalDigit);
    UnsignedFloatOfFraction(false, a, 1, 3);
    assert a[..1] + a[2..3] == "15";
  }

  /** `BigInt` rejects an exponent, so "1e3" stays the `parseFloat` number 1000. */
  lemma ExponentFallsBackToFloat()
    ensures ParsePossibleLargeNumber("1e3") == NumberValue(Decimal(false, 1, 3))
  {
    ExponentIsNoBigInt();
    ExponentParsesAsFloat();
    RejectedByBigIntIsFloat("1e3");
  }

  lemma ExponentIsNoBigInt()
    ensures StringToBigInt("1e3") == None
  {
    var b := "1e3";
    TrimOfTrimmed(b);
    assert SplitSign(b) == (false, b);
    assert DigitValue(b[1]) == 14;
  }

  lemma ExponentParsesAsFloat()
    ensures ParseFloat("1e3") == Decimal(false, 1, 3)
  {
    SmallValues();
    var b := "1e3";
    TrimOfTrimmed(b);
    assert SplitSign(b) == (false, b);
    RunEndIs(b, 0, 1, IsDecimalDigit);
    assert b[..1] + "" == "1";
    var rest := b[2..];
    assert SplitSign(rest) == (false, "3");
    RunEndIs(rest, 0, 1, IsDecimalDigit);
    assert rest[..1] == "3";
    assert ExponentAt(b, 1) == Some(3);
    assert !HasPrefixAt(b, 0, "Infinity");
  }

  /** `BigInt` rejects trailing junk, so "12abc" stays the `parseFloat` number 12. */
  lemma TrailingJunkFallsBackToFloat()
    ensures ParsePossibleLargeNumber("12abc") == NumberValue(Decimal(false, 12, 0))
  {
    TrailingJunkIsNoBigInt();
    TrailingJunkParsesAsFloat();
    RejectedByBigIntIsFloat("12abc");
  }

  lemma TrailingJunkIsNoBigInt()
    ensures StringToBigInt("12abc") == None
  {
    var c := "12abc";
    TrimOfTrimmed(c);
    assert SplitSign(c) == (false, c);
    assert DigitValue(c[2]) == 10;
  }

  lemma TrailingJunkParsesAsFloat()
    ensures ParseFloat("12abc") == Decimal(false, 12, 0)
  {
    SmallValues();
    var c := "12abc";
    TrimOfTrimmed(c);
    assert SplitSign(c) == (false, c);
    RunEndIs(c, 0, 2, IsDecimalDigit);
    UnsignedFloatOfDigits(false, c, 2);
  }

  /** Where `parseInt` finds no digit, `BigInt(NaN)` throws and the result is
      `parseFloat`'s NaN. */
  lemma NoDigitsGiveNaN()
    ensures !IsBigInt("") && ParsePossibleLargeNumber("") == NumberValue(NaN)
    ensures !IsBigInt("abc") && ParsePossibleLargeNumber("abc") == NumberValue(NaN)
  {
    NoLeadingDigitGivesNaN("");
    var a := "abc";
    TrimOfTrimmed(a);
    NoLeadingDigitGivesNaN(a);
  }

  /** Text that, after leading whitespace, starts with neither a sign, a
      digit, a point nor `I` gives NaN from both `parseInt` and `parseFloat`. */
  lemma NoLeadingDigitGivesNaN(s: string)
    requires var t := TrimStart(s); |t| == 0 || (t[0] !in "+-.I" && !IsDecimalDigit(t[0]))
    ensures !IsBigInt(s) && ParsePossibleLargeNumber(s) == NumberValue(NaN)
  {
    var t := TrimStart(s);
    assert SplitSign(t) == (false, t);
    RunEndIs(t, 0, 0, IsDecimalDigit);
    assert ParseInt10(s) == None;
    assert !HasPrefixAt(t, 0, "Infinity") by {
      if |t| >= 8 {
        assert t[0] != "Infinity"[0];
      }
    }
  }

  /** 2^53 + 1 is the first integer `parseInt` rounds (to 2^53), so its
      decimal text becomes an exact bigint. */
  lemma FirstUnsafeIntegerBecomesBigInt()
    ensures ParsePossibleLargeNumber(DecimalString(TwoTo53 + 1)) == BigIntValue(TwoTo53 + 1)
  {
    var s := DecimalString(TwoTo53 + 1);
    DecimalStringIsDecimalInteger(TwoTo53 + 1);
    assert UlpExponent(TwoTo53 + 1) == 1;
    assert RoundToDouble(TwoTo53 + 1) == Finite(TwoTo53);
    DecimalIntegerIsExact(s);
  }

  /** `parseInt` reads a hexadecimal literal as 0, so "0x1A" becomes the bigint 26. */
  lemma HexLiteralBecomesBigInt()
    ensures ParsePossibleLargeNumber("0x1A") == BigIntValue(26)
  {
    SmallValues();
    var hex := "0x1A";
    TrimOfTrimmed(hex);
    assert hex[2..] == "1A";
    assert StringToBigInt(hex) == Some(26);
    RadixLiteralIsBigIntUnlessZero(hex);
  }
}

=== FILE: nobitex_transactions.dfy ===
/**
 Normalisation of one row of Nobitex's transaction history
 (`formatTransaction`, `processType`, `processPrice`): the direction from the
 sign of the amount, quantities through `parsePossibleLargeNumber`, the asset
 renamed through the pricing table, the type refined from Persian markers in
 the description, and the unit-price hint merged into `meta`.
 */
module NobitexTransactions {
  import opened Wrappers
  import opened Text
  import opened JsNumbers
  import opened LargeNumbers
  import opened AssetConfig
  import opened PricePattern

  /** The fields of a history row that formatting reads (`UserTransaction`). */
  datatype UserTransaction = UserTransaction(
    id: int,
    amount: string,
    currency: string,
    description: string,
    createdAt: string,
    balance: string)

  /** `new Date(created_at)`, kept as the text it is built from. */
  datatype Instant = DateOf(createdAt: string)

  /** The four types `processType` can produce. */
  datatype TransactionType = Buy | Sell | Deposit | Withdrawal

  /** `meta`: the exchange id and description, and, once `processPrice` has
      run, its `price` and `unit` keys (None before). */
  datatype Meta = Meta(nobitexId: int, description: string, priceHint: Option<PriceAndUnit>)

  datatype Transaction = Transaction(
    time: Instant,
    txType: TransactionType,
    assetName: string,
    quantity: Numeric,
    price: Option<JsNumber>,
    balance: Numeric,
    meta: Meta)

  /** `amount.startsWith("-")`. */
  predicate IsNegativeAmount(amount: string) {
    HasPrefixAt(amount, 0, "-")
  }

  /** `amount.replace(/^-/, "")`: at most one leading minus sign removed. */
  function Magnitude(amount: string): (r: string)
    ensures IsNegativeAmount(amount) ==> amount == "-" + r
    ensures !IsNegativeAmount(amount) ==> r == amount
  {
    if IsNegativeAmount(amount) then amount[1..] else amount
  }

  /** `formatTransaction(transaction)`. */
  function FormatTransaction(row: UserTransaction): (t: Transaction)
    ensures t.txType == Sell <==> IsNegativeAmount(row.amount)
    ensures t.txType == Buy <==> !IsNegativeAmount(row.amount)
    ensures t.assetName == if row.currency in ConfigKeys then BaseAssetFor(row.currency) else row.currency
    ensures t.quantity == ParsePossibleLargeNumber(Magnitude(row.amount))
    ensures t.balance == ParsePossibleLargeNumber(row.balance)
    ensures t.price.None?
    ensures t.meta == Meta(row.id, row.description, None)
    ensures t.time == DateOf(row.createdAt)
  {
    var assetConfig := Lookup(row.currency);
    Transaction(
      DateOf(row.createdAt),
      if IsNegativeAmount(row.amount) then Sell else Buy,
      match assetConfig case Some(c) => c.baseAsset case None => row.currency,
      ParsePossibleLargeNumber(Magnitude(row.amount)),
      None,
      ParsePossibleLargeNumber(row.balance),
      Meta(row.id, row.description, None))
  }

  /** An unsigned digit string parses to its exact value, as a bigint or as a number. */
  lemma DigitsParseExactly(digits: string)
    requires |digits| > 0 && forall k :: 0 <= k < |digits| ==> IsDecimalDigit(digits[k])
    ensures var q := ParsePossibleLargeNumber(digits);
      && (q.BigIntValue? ==> q.value == ValueIn(digits, 10))
      && (q.NumberValue? ==> Denotes(q.number, ValueIn(digits, 10)))
  {
    SignedDigitsAreDecimalInteger(false, digits);
    DecimalIntegerIsExact(digits);
  }

  /** A signed decimal amount is split into its direction and its exact
      magnitude: a sell exactly when it starts with `-`, and a quantity with
      the value of the digits, as a bigint or as a number. */
  lemma SignedDecimalAmount(row: UserTransaction, digits: string, negative: bool)
    requires |digits| > 0 && forall k :: 0 <= k < |digits| ==> IsDecimalDigit(digits[k])
    requires row.amount == (if negative then "-" + digits else digits)
    ensures var t := FormatTransaction(row);
      && (t.txType == Sell <==> negative)
      && (t.quantity.BigIntValue? ==> t.quantity.value == ValueIn(digits, 10))
      && (t.quantity.NumberValue? ==> Denotes(t.quantity.number, ValueIn(digits, 10)))
  {
    if negative {
      assert IsNegativeAmount(row.amount);
      assert row.amount[1..] == digits;
    } else {
      assert row.amount[0] != '-';
    }
    assert Magnitude(row.amount) == digits;
    DigitsParseExactly(digits);
  }

  /** Only one minus sign is removed: "--5" is a sell of the number -5. */
  lemma DoubleMinusKeepsOneSign(row: UserTransaction)
    requires row.amount == "--5"
    ensures FormatTransaction(row).txType == Sell
    ensures FormatTransaction(row).quantity == NumberValue(Decimal(true, 5, 0))
  {
    var m := Magnitude(row.amount);
    assert m == "-" + "5";
    assert ValueIn("5", 10) == 5 by {
      assert "5"[..0] == "";
    }
    SignedDigitsAreDecimalInteger(true, "5");
    SafeIntegerStaysNumber(m);
    ParseFloatOfDecimalInteger(m);
  }

  // ---------------------------------------------------------------------
  // processType
  // ---------------------------------------------------------------------

  /** Persian "buy". */
  const BuyMarker: string := "\U{062E}\U{0631}\U{06CC}\U{062F}"
  /** Persian "sell". */
  const SellMarker: string := "\U{0641}\U{0631}\U{0648}\U{0634}"
  /** Persian "deposit". */
  const DepositMarker: string := "\U{0648}\U{0627}\U{0631}\U{06CC}\U{0632}"
  /** Persian "withdrawal". */
  const WithdrawalMarker: string := "\U{0628}\U{0631}\U{062F}\U{0627}\U{0634}\U{062A}"

  /** `processType(transaction)`: the first marker the description contains,
      tried in the order buy, sell, deposit, withdrawal, decides the type;
      with none the transaction is returned as it is. */
  function ProcessType(t: Transaction): (r: Transaction)
    ensures r == t.(txType := r.txType)
    ensures r.txType == Buy <==>
      Occurs(t.meta.description, BuyMarker) || (NoMarker(t.meta.description) && t.txType == Buy)
    ensures r.txType == Sell <==>
      (!Occurs(t.meta.description, BuyMarker) && Occurs(t.meta.description, SellMarker))
      || (NoMarker(t.meta.description) && t.txType == Sell)
    ensures r.txType == Deposit <==>
      (!Occurs(t.meta.description, BuyMarker) && !Occurs(t.meta.description, SellMarker)
       && Occurs(t.meta.description, DepositMarker))
      || (NoMarker(t.meta.description) && t.txType == Deposit)
    ensures r.txType == Withdrawal <==>
      (!Occurs(t.meta.description, BuyMarker) && !Occurs(t.meta.description, SellMarker)
       && !Occurs(t.meta.description, DepositMarker) && Occurs(t.meta.description, WithdrawalMarker))
      || (NoMarker(t.meta.description) && t.txType == Withdrawal)
    ensures NoMarker(t.meta.description) ==> r == t
  {
    var description := t.meta.description;
    IncludesIffOccurs(description, BuyMarker);
    IncludesIffOccurs(description, SellMarker);
    IncludesIffOccurs(description, DepositMarker);
    IncludesIffOccurs(description, WithdrawalMarker);
    if Includes(description, BuyMarker) then t.(txType := Buy)
    else if Includes(description, SellMarker) then t.(txType := Sell)
    else if Includes(description, DepositMarker) then t.(txType := Deposit)
    else if Includes(description, WithdrawalMarker) then t.(txType := Withdrawal)
    else t
  }

  /** None of the four markers occurs in the description. */
  ghost predicate NoMarker(description: string) {
    && !Occurs(description, BuyMarker)
    && !Occurs(description, SellMarker)
    && !Occurs(description, DepositMarker)
    && !Occurs(description, WithdrawalMarker)
  }

  /** Reclassifying twice changes nothing more. */
  lemma ProcessTypeIdempotent(t: Transaction)
    ensures ProcessType(ProcessType(t)) == ProcessType(t)
  {
  }

  // ---------------------------------------------------------------------
  // processPrice
  // ---------------------------------------------------------------------

  /** `processPrice(transaction)`: `price` and `unit` from the description
      are written into `meta` (as nulls when there is no hint); nothing else
      changes. `extractPriceAndUnit` never returns null, so its `?? {}`
      fallback is never taken. */
  function ProcessPrice(t: Transaction): (r: Transaction)
    ensures r.(meta := t.meta) == t
    ensures r.meta.(priceHint := t.meta.priceHint) == t.meta
    ensures r.meta.priceHint.Some?
    ensures r.meta.priceHint.value.price.None? <==> r.meta.priceHint.value.unit.None?
    ensures r.meta.priceHint.value.price.None? <==> NoOccurrence(t.meta.description)
    ensures forall m :: IsFirstMatch(t.meta.description, m) ==>
      r.meta.priceHint == Some(PriceAndUnit(Some(CapturedPrice(m.price)), Some(m.unit)))
  {
    var priceAndUnit := ExtractPriceAndUnit(t.meta.description);
    t.(meta := t.meta.(priceHint := Some(priceAndUnit)))
  }

  /** Merging the hint a second time writes the same keys again. */
  lemma ProcessPriceIdempotent(t: Transaction)
    ensures ProcessPrice(ProcessPrice(t)) == ProcessPrice(t)
  {
  }

  /** The two refinements read only the description and write disjoint
      fields, so their order does not matter. */
  lemma ProcessTypeAndPriceCommute(t: Transaction)
    ensures ProcessPrice(ProcessType(t)) == ProcessType(ProcessPrice(t))
  {
  }

  // ---------------------------------------------------------------------
  // The three steps together
  // ---------------------------------------------------------------------

  /** A history row formatted, reclassified and given its price hint, in the
      order the steps' parameter types chain them. */
  function Normalize(row: UserTransaction): (t: Transaction)
    ensures t.time == DateOf(row.createdAt)
    ensures t.assetName == if row.currency in ConfigKeys then BaseAssetFor(row.currency) else row.currency
    ensures t.quantity == ParsePossibleLargeNumber(Magnitude(row.amount))
    ensures t.balance == ParsePossibleLargeNumber(row.balance)
    ensures t.price.None?
    ensures t.meta.nobitexId == row.id && t.meta.description == row.description
    ensures t.meta.priceHint == Some(ExtractPriceAndUnit(row.description))
    ensures Occurs(row.description, BuyMarker) ==> t.txType == Buy
    ensures NoMarker(row.description) ==> (t.txType == Sell <==> IsNegativeAmount(row.amount))
    ensures NoMarker(row.description) ==> (t.txType == Buy <==> !IsNegativeAmount(row.amount))
  {
    ProcessPrice(ProcessType(FormatTransaction(row)))
  }

  /** A description with the sell marker and no buy marker makes a sell,
      whatever the sign of the amount. */
  lemma SellMarkerOverridesSign(row: UserTransaction)
    requires Occurs(row.description, SellMarker) && !Occurs(row.description, BuyMarker)
    ensures Normalize(row).txType == Sell
  {
  }

  /** A description with both the buy and the sell marker, in either order,
      makes a buy. */
  lemma BuyMarkerWinsOverSell(t: Transaction)
    requires Occurs(t.meta.description, BuyMarker) && Occurs(t.meta.description, SellMarker)
    ensures ProcessType(t).txType == Buy
  {
  }
}

=== FILE: price_pattern.dfy ===
/**
 The unit-price hint in a transaction description: the first place where the
 description reads "به قیمت واحد " ("at unit price "), a run of digits and
 commas, one space and a run of non-whitespace characters (the unit), as the
 regular expression `/به قیمت واحد ([\d,]+) (\S+)/` finds it.

 The expression has no `g` flag, so only its leftmost match is used. The
 digit/comma class cannot contain the space that must follow it, so the
 first group is always the whole run; nothing follows the second group, so
 greedy matching makes it the whole non-whitespace run.
 */
module PricePattern {
  import opened Wrappers
  import opened Text
  import opened JsNumbers

  /** "به قیمت واحد " ("at unit price "), with its trailing space. */
  const Phrase: string := "\U{0628}\U{0647} \U{0642}\U{06CC}\U{0645}\U{062A} \U{0648}\U{0627}\U{062D}\U{062F} "

  /** The class `[\d,]`. */
  predicate IsDigitOrComma(c: char) {
    IsDecimalDigit(c) || c == ','
  }

  /** The class `\S`. */
  predicate IsNonWhitespace(c: char) {
    !IsWhitespace(c)
  }

  /** A successful `input.match(regex)`: where the match starts, group 1 (the
      price text) and group 2 (the unit). */
  datatype RegexMatch = RegexMatch(index: nat, price: string, unit: string)

  /** Index just past the unit of a match at `i` with the given groups. */
  function EndOf(i: nat, price: string, unit: string): nat {
    i + |Phrase| + |price| + 1 + |unit|
  }

  /** The pattern occurs at `i` with these groups: the phrase, a non-empty
      digit/comma run, one space and a non-empty non-whitespace run. Neither
      run need be the longest one. */
  ghost predicate OccursAt(s: string, i: nat, price: string, unit: string) {
    var a := i + |Phrase|;
    var b := a + |price|;
    && EndOf(i, price, unit) <= |s|
    && s[i..a] == Phrase
    && s[a..b] == price
    && s[b] == ' '
    && s[b + 1..EndOf(i, price, unit)] == unit
    && |price| > 0 && (forall k :: 0 <= k < |price| ==> IsDigitOrComma(price[k]))
    && |unit| > 0 && (forall k :: 0 <= k < |unit| ==> IsNonWhitespace(unit[k]))
  }

  /** The occurrence a backtracking matcher reports at `i`: the unit runs up
      to whitespace or the end of the input. */
  ghost predicate MatchedAt(s: string, i: nat, price: string, unit: string) {
    OccursAt(s, i, price, unit) && (EndOf(i, price, unit) == |s| || IsWhitespace(s[EndOf(i, price, unit)]))
  }

  /** The pattern occurs nowhere in `s`. */
  ghost predicate NoOccurrence(s: string) {
    forall i: nat, price: string, unit: string :: !OccursAt(s, i, price, unit)
  }

  /** `m` is what `s.match(regex)` yields: reported at its index, with no
      occurrence of the pattern at any earlier index. */
  ghost predicate IsFirstMatch(s: string, m: RegexMatch) {
    && MatchedAt(s, m.index, m.price, m.unit)
    && forall x: nat, price: string, unit: string :: x < m.index ==> !OccursAt(s, x, price, unit)
  }

  /** The matcher's attempt at index `i`. */
  function MatchAt(s: string, i: nat): Option<RegexMatch>
    requires i <= |s|
  {
    if !HasPrefixAt(s, i, Phrase) then None
    else
      var a := i + |Phrase|;
      var b := RunEnd(s, a, IsDigitOrComma);
      if b == a || b == |s| || s[b] != ' ' then None
      else
        var c := RunEnd(s, b + 1, IsNonWhitespace);
        if c == b + 1 then None else Some(RegexMatch(i, s[a..b], s[b + 1..c]))
  }

  /** The attempt at `i` reports `i` as the index of its match. */
  lemma MatchAtIndex(s: string, i: nat)
    requires i <= |s|
    ensures MatchAt(s, i).Some? ==> MatchAt(s, i).value.index == i
  {
  }

  /** What the attempt at `i` reports is an occurrence there that a
      backtracking matcher would report. */
  lemma MatchAtIsSound(s: string, i: nat)
    requires i <= |s|
    ensures MatchAt(s, i).Some? ==> MatchAt(s, i).value.index == i
    ensures MatchAt(s, i).Some? ==> MatchedAt(s, i, MatchAt(s, i).value.price, MatchAt(s, i).value.unit)
  {
    MatchAtIndex(s, i);
    var r := MatchAt(s, i);
    if r.Some? {
      var a := i + |Phrase|;
      var b := RunEnd(s, a, IsDigitOrComma);
      var c := RunEnd(s, b + 1, IsNonWhitespace);
      var price := s[a..b];
      var unit := s[b + 1..c];
      assert r.value == RegexMatch(i, price, unit);
      assert c == EndOf(i, price, unit);
      assert s[i..a] == Phrase;
      assert forall k :: 0 <= k < |price| ==> IsDigitOrComma(price[k]);
      assert forall k :: 0 <= k < |unit| ==> IsNonWhitespace(unit[k]);
      assert OccursAt(s, i, price, unit);
    }
  }

  /** Any occurrence at `i` is found by the attempt at `i`, with the same
      price and a unit that extends the occurrence's; the reported occurrence
      is the only one the attempt can return. */
  lemma OccurrenceIsFound(s: string, i: nat, price: string, unit: string)
    requires OccursAt(s, i, price, unit)
    ensures MatchAt(s, i).Some?
    ensures MatchAt(s, i).value.price == price
    ensures |unit| <= |MatchAt(s, i).value.unit|
    ensures MatchedAt(s, i, price, unit) ==> MatchAt(s, i) == Some(RegexMatch(i, price, unit))
  {
    var a := i + |Phrase|;
    var b := a + |price|;
    var e := EndOf(i, price, unit);
    assert HasPrefixAt(s, i, Phrase);
    RunOfCopy(s, a, price, IsDigitOrComma);
    RunEndIs(s, a, b, IsDigitOrComma);
    RunOfCopy(s, b + 1, unit, IsNonWhitespace);
    if MatchedAt(s, i, price, unit) {
      RunEndIs(s, b + 1, e, IsNonWhitespace);
    }
  }

  /** The matcher tries start positions from `i` on, left to right. */
  function FindFrom(s: string, i: nat): Option<RegexMatch>
    requires i <= |s|
    decreases |s| - i
  {
    var attempt := MatchAt(s, i);
    if attempt.Some? || i == |s| then attempt else FindFrom(s, i + 1)
  }

  /** What the scan from `i` reports is the successful attempt at its index,
      at or after `i`. */
  lemma {:induction false} FindFromReportsAttempt(s: string, i: nat)
    requires i <= |s|
    ensures FindFrom(s, i).Some? ==> i <= FindFrom(s, i).value.index <= |s|
    ensures FindFrom(s, i).Some? ==> MatchAt(s, FindFrom(s, i).value.index) == FindFrom(s, i)
    decreases |s| - i
  {
    if MatchAt(s, i).Some? {
      MatchAtIndex(s, i);
    } else if i < |s| {
      FindFromReportsAttempt(s, i + 1);
    }
  }

  /** Starting the scan at any position up to the reported index (anywhere,
      when nothing is reported) gives the same report: every attempt skipped
      on the way failed. */
  lemma {:induction false} FindFromSkipsFailures(s: string, i: nat, x: nat)
    requires i <= x <= |s|
    requires FindFrom(s, i).None? || x <= FindFrom(s, i).value.index
    ensures FindFrom(s, x) == FindFrom(s, i)
    decreases x - i
  {
    if i < x {
      MatchAtIndex(s, i);
      assert MatchAt(s, i).None?;
      FindFromSkipsFailures(s, i + 1, x);
    }
  }

  /** The left-to-right scan reports exactly the leftmost occurrence. */
  lemma FindFromStartIsFirstMatch(s: string)
    ensures FindFrom(s, 0).None? <==> NoOccurrence(s)
    ensures FindFrom(s, 0).Some? ==> IsFirstMatch(s, FindFrom(s, 0).value)
  {
    var r := FindFrom(s, 0);
    FindFromReportsAttempt(s, 0);
    if r.Some? {
      MatchAtIsSound(s, r.value.index);
    }
    forall i: nat, price: string, unit: string | OccursAt(s, i, price, unit)
      ensures r.Some? && r.value.index <= i
    {
      OccurrenceIsFound(s, i, price, unit);
      MatchAtIndex(s, i);
      if r.None? || i < r.value.index {
        FindFromSkipsFailures(s, 0, i);
      }
    }
  }

  /** Two reports of the first match agree. */
  lemma FirstMatchIsUnique(s: string, m: RegexMatch, m': RegexMatch)
    requires IsFirstMatch(s, m) && IsFirstMatch(s, m')
    ensures m == m'
  {
    assert OccursAt(s, m.index, m.price, m.unit);
    assert OccursAt(s, m'.index, m'.price, m'.unit);
    assert m.index == m'.index;
    OccurrenceIsFound(s, m.index, m.price, m.unit);
    OccurrenceIsFound(s, m'.index, m'.price, m'.unit);
  }

  /** `s.match(regex)`: None when the pattern occurs nowhere, otherwise the
      leftmost occurrence with both runs taken whole. */
  function FirstMatch(s: string): (r: Option<RegexMatch>)
    ensures r.None? <==> NoOccurrence(s)
    ensures r.Some? ==> IsFirstMatch(s, r.value)
  {
    FindFromStartIsFirstMatch(s);
    FindFrom(s, 0)
  }

  /** Text after the first match (past the whitespace that ends its unit)
      never changes the result: later occurrences are ignored. */
  lemma LaterTextIsIgnored(s: string, t: string)
    requires FirstMatch(s).Some?
    requires var m := FirstMatch(s).value; EndOf(m.index, m.price, m.unit) < |s|
    ensures FirstMatch(s + t) == FirstMatch(s)
  {
    var m := FirstMatch(s).value;
    var st := s + t;
    var i := m.index;
    var e := EndOf(i, m.price, m.unit);
    assert st[..|s|] == s;
    assert st[i..i + |Phrase|] == s[i..i + |Phrase|];
    assert st[i + |Phrase|..i + |Phrase| + |m.price|] == s[i + |Phrase|..i + |Phrase| + |m.price|];
    assert st[i + |Phrase| + |m.price| + 1..e] == s[i + |Phrase| + |m.price| + 1..e];
    assert MatchedAt(st, i, m.price, m.unit);
    forall x: nat, price: string, unit: string | x < i
      ensures !OccursAt(st, x, price, unit)
    {
      EarlierOccurrenceIsAbsent(s, t, m, x, price, unit);
    }
    var m' := FirstMatch(st).value;
    assert IsFirstMatch(st, m);
    FirstMatchIsUnique(st, m, m');
  }

  /** Appending text creates no occurrence before the first match of `s`. */
  lemma EarlierOccurrenceIsAbsent(s: string, t: string, m: RegexMatch, x: nat, price: string, unit: string)
    requires IsFirstMatch(s, m)
    requires x < m.index
    ensures !OccursAt(s + t, x, price, unit)
  {
    if OccursAt(s + t, x, price, unit) {
      OccurrenceBeforePhraseStaysInside(s, t, m.index, x, price, unit);
      assert false;
    }
  }

  /** An occurrence in `s + t` that starts before a phrase of `s` (one with
      room for a character after it) ends its price before that phrase's
      closing space, so a one-character unit of it already occurs in `s`. */
  lemma OccurrenceBeforePhraseStaysInside(s: string, t: string, i: nat, x: nat, price: string, unit: string)
    requires i + |Phrase| < |s| && s[i..i + |Phrase|] == Phrase
    requires x < i
    requires OccursAt(s + t, x, price, unit)
    ensures OccursAt(s, x, price, unit[..1])
  {
    var st := s + t;
    var q := i + |Phrase| - 1;
    var a := x + |Phrase|;
    var b := a + |price|;
    assert s[q] == s[i..i + |Phrase|][|Phrase| - 1] == ' ';
    assert st[q] == s[q];
    forall k | a <= k < b
      ensures IsDigitOrComma(st[k])
    {
      assert st[k] == price[k - a];
    }
    assert !IsDigitOrComma(st[q]);
    assert b + 2 <= |s|;
    assert st[..|s|] == s;
    assert s[x..a] == st[x..a];
    assert s[a..b] == st[a..b];
    assert s[b + 1..b + 2] == st[b + 1..b + 2];
  }

  // ---------------------------------------------------------------------
  // extractPriceAndUnit
  // ---------------------------------------------------------------------

  /** `price.replace(/,/g, "")`. */
  function RemoveCommas(s: string): string {
    if |s| == 0 then "" else (if s[0] == ',' then "" else [s[0]]) + RemoveCommas(s[1..])
  }

  /** Removing commas leaves no comma and keeps every other character as
      often as it occurs. */
  lemma {:induction false} RemoveCommasKeepsOthers(s: string)
    ensures forall k :: 0 <= k < |RemoveCommas(s)| ==> RemoveCommas(s)[k] != ','
    ensures forall c :: c != ',' ==> multiset(RemoveCommas(s))[c] == multiset(s)[c]
  {
    if |s| > 0 {
      RemoveCommasKeepsOthers(s[1..]);
      assert s == [s[0]] + s[1..];
    }
  }

  /** Removing commas works piece by piece, so the order of the kept
      characters is the order in `s`. */
  lemma {:induction false} RemoveCommasAppend(a: string, b: string)
    ensures RemoveCommas(a + b) == RemoveCommas(a) + RemoveCommas(b)
  {
    if |a| > 0 {
      assert (a + b)[1..] == a[1..] + b;
      RemoveCommasAppend(a[1..], b);
    } else {
      assert a + b == b;
    }
  }

  /** A string without commas is unchanged. */
  lemma {:induction false} RemoveCommasWithoutCommas(s: string)
    requires forall k :: 0 <= k < |s| ==> s[k] != ','
    ensures RemoveCommas(s) == s
  {
    if |s| > 0 {
      RemoveCommasWithoutCommas(s[1..]);
      assert s == [s[0]] + s[1..];
    }
  }

  /** A digit/comma run becomes a string of decimal digits. */
  lemma {:induction false} RemoveCommasOfRun(s: string)
    requires forall k :: 0 <= k < |s| ==> IsDigitOrComma(s[k])
    ensures forall k :: 0 <= k < |RemoveCommas(s)| ==> IsDecimalDigit(RemoveCommas(s)[k])
  {
    if |s| > 0 {
      RemoveCommasOfRun(s[1..]);
    }
  }

  /** `extractPriceAndUnit`'s result: both null, or a price and a unit. */
  datatype PriceAndUnit = PriceAndUnit(price: Option<JsNumber>, unit: Option<string>)

  /** The price a match yields: `parseFloat` of group 1 without its commas.
      For a digit/comma run that is the digits' value, or NaN when the run is
      only commas. */
  function CapturedPrice(run: string): (x: JsNumber)
    ensures (forall k :: 0 <= k < |run| ==> IsDigitOrComma(run[k])) ==>
      if |RemoveCommas(run)| == 0 then x == NaN
      else x == Decimal(false, ValueIn(RemoveCommas(run), 10), 0)
  {
    if forall k :: 0 <= k < |run| ==> IsDigitOrComma(run[k]) then
      RemoveCommasOfRun(run);
      ParseFloatOfDigits(RemoveCommas(run));
      ParseFloat(RemoveCommas(run))
    else
      ParseFloat(RemoveCommas(run))
  }

  /** `extractPriceAndUnit(input)`. */
  function ExtractPriceAndUnit(input: string): (r: PriceAndUnit)
    ensures r.price.None? <==> r.unit.None?
    ensures r.price.None? <==> NoOccurrence(input)
    ensures forall m :: IsFirstMatch(input, m) ==>
      r == PriceAndUnit(Some(CapturedPrice(m.price)), Some(m.unit))
  {
    match FirstMatch(input)
    case None => PriceAndUnit(None, None)
    case Some(m) =>
      assert forall m' :: IsFirstMatch(input, m') ==> m' == m by {
        forall m' | IsFirstMatch(input, m')
          ensures m' == m
        {
          FirstMatchIsUnique(input, m, m');
        }
      }
      PriceAndUnit(Some(CapturedPrice(m.price)), Some(m.unit))
  }

  lemma CommasOfExample()
    ensures RemoveCommas("1,250") == "1250"
  {
    assert "1,250"[1..] == ",250" && ",250"[1..] == "250";
    RemoveCommasWithoutCommas("250");
  }

  lemma DigitsOfExample()
    ensures ValueIn("1250", 10) == 1250
  {
    var d := "1250";
    assert d[..3] == "125" && "125"[..2] == "12" && "12"[..1] == "1" && "1"[..0] == "";
  }

  /** "1,250" gives the price 1250; a group made only of commas gives NaN. */
  lemma CommaGroupedPrices()
    ensures CapturedPrice("1,250") == Decimal(false, 1250, 0)
    ensures CapturedPrice(",,") == NaN
  {
    GroupedPrice();
    CommasOnlyPrice();
  }

  lemma GroupedPrice()
    ensures CapturedPrice("1,250") == Decimal(false, 1250, 0)
  {
    var run := "1,250";
    assert forall k :: 0 <= k < |run| ==> IsDigitOrComma(run[k]);
    CommasOfExample();
    DigitsOfExample();
  }

  lemma CommasOnlyPrice()
    ensures CapturedPrice(",,") == NaN
  {
    var run := ",,";
    assert forall k :: 0 <= k < |run| ==> IsDigitOrComma(run[k]);
    assert run[1..] == "," && ","[1..] == "";
  }

  /** A description that starts with the phrase yields its price and unit. */
  lemma PhraseAtStart(price: string, unit: string, rest: string)
    requires |price| > 0 && forall k :: 0 <= k < |price| ==> IsDigitOrComma(price[k])
    requires |unit| > 0 && forall k :: 0 <= k < |unit| ==> IsNonWhitespace(unit[k])
    requires |rest| == 0 || IsWhitespace(rest[0])
    ensures ExtractPriceAndUnit(Phrase + price + " " + unit + rest)
      == PriceAndUnit(Some(CapturedPrice(price)), Some(unit))
  {
    var s := Phrase + price + " " + unit + rest;
    var e := EndOf(0, price, unit);
    assert s[0..|Phrase|] == Phrase;
    assert s[|Phrase|..|Phrase| + |price|] == price;
    assert s[|Phrase| + |price|] == ' ';
    assert s[|Phrase| + |price| + 1..e] == unit;
    assert e < |s| ==> s[e] == rest[0];
    assert IsFirstMatch(s, RegexMatch(0, price, unit));
  }
}

=== FILE: text.dfy ===
/**
 Character classes and string scanning shared by the JavaScript built-ins
 the adapter relies on: `String.prototype.includes`, `trim`, and the runs of
 characters a regular expression or a number parser consumes.
 */
module Text {

  /** ECMAScript WhiteSpace and LineTerminator code points: what `\s` matches,
      what `trim` removes and what `parseInt`/`parseFloat` skip. */
  predicate IsWhitespace(c: char) {
    || c == '\t' || c == '\n' || c == '\U{000B}' || c == '\U{000C}' || c == '\r'
    || c == ' ' || c == '\U{00A0}' || c == '\U{1680}'
    || ('\U{2000}' <= c <= '\U{200A}')
    || c == '\U{2028}' || c == '\U{2029}' || c == '\U{202F}' || c == '\U{205F}'
    || c == '\U{3000}' || c == '\U{FEFF}'
  }

  /** ASCII `0`-`9`, the class `\d` and the digits of `parseInt(s, 10)`. */
  predicate IsDecimalDigit(c: char) {
    '0' <= c <= '9'
  }

  /** `p` occurs in `s` starting at index `i`. */
  predicate HasPrefixAt(s: string, i: nat, p: string) {
    i + |p| <= |s| && s[i..i + |p|] == p
  }

  /** Declarative containment: some index of `s` starts a copy of `p`. */
  ghost predicate Occurs(s: string, p: string) {
    exists i: nat :: HasPrefixAt(s, i, p)
  }

  /** `s.includes(p)`: tries the start positions from `i` on, left to right. */
  predicate IncludesFrom(s: string, p: string, i: nat)
    decreases |s| - i
  {
    i + |p| <= |s| && (HasPrefixAt(s, i, p) || IncludesFrom(s, p, i + 1))
  }

  predicate Includes(s: string, p: string) {
    IncludesFrom(s, p, 0)
  }

  /** The scan from `i` finds `p` exactly when some index at or after `i` starts a copy of it. */
  lemma {:induction false} IncludesFromIffLater(s: string, p: string, i: nat)
    ensures IncludesFrom(s, p, i) <==> exists j: nat :: i <= j && HasPrefixAt(s, j, p)
    decreases |s| - i
  {
    if i + |p| <= |s| {
      IncludesFromIffLater(s, p, i + 1);
      if exists j: nat :: i <= j && HasPrefixAt(s, j, p) {
        var j: nat :| i <= j && HasPrefixAt(s, j, p);
        if j > i {
          assert i + 1 <= j;
        }
      }
    }
  }

  /** The scanning `includes` agrees with declarative containment, both ways. */
  lemma IncludesIffOccurs(s: string, p: string)
    ensures Includes(s, p) <==> Occurs(s, p)
  {
    IncludesFromIffLater(s, p, 0);
  }

  /** End of the longest run of characters satisfying `p` that starts at `i`. */
  function RunEnd(s: string, i: nat, p: char -> bool): (e: nat)
    requires i <= |s|
    ensures i <= e <= |s|
    ensures forall k :: i <= k < e ==> p(s[k])
    ensures e == |s| || !p(s[e])
    decreases |s| - i
  {
    if i < |s| && p(s[i]) then RunEnd(s, i + 1, p) else i
  }

  /** A run that the caller already knows to be maximal is the one `RunEnd` finds. */
  lemma RunEndIs(s: string, i: nat, e: nat, p: char -> bool)
    requires i <= e <= |s|
    requires forall k :: i <= k < e ==> p(s[k])
    requires e == |s| || !p(s[e])
    ensures RunEnd(s, i, p) == e
  {
  }

  /** A copy of `piece` inside `s` at `a` whose characters all satisfy `p`
      gives a run of such characters there. */
  lemma RunOfCopy(s: string, a: nat, piece: string, p: char -> bool)
    requires a + |piece| <= |s| && s[a..a + |piece|] == piece
    requires forall k :: 0 <= k < |piece| ==> p(piece[k])
    ensures forall k :: a <= k < a + |piece| ==> p(s[k])
  {
    forall k | a <= k < a + |piece|
      ensures p(s[k])
    {
      assert s[k] == piece[k - a];
    }
  }

  /** `s` without its leading whitespace (`trimStart`). */
  function TrimStart(s: string): (r: string)
    ensures |r| <= |s| && r == s[|s| - |r|..]
    ensures forall k :: 0 <= k < |s| - |r| ==> IsWhitespace(s[k])
    ensures |r| == 0 || !IsWhitespace(r[0])
  {
    s[RunEnd(s, 0, IsWhitespace)..]
  }

  /** `s` without its trailing whitespace (`trimEnd`). */
  function TrimEnd(s: string): (r: string)
    ensures |r| <= |s| && r == s[..|r|]
    ensures forall k :: |r| <= k < |s| ==> IsWhitespace(s[k])
    ensures |r| == 0 || !IsWhitespace(r[|r| - 1])
  {
    if |s| > 0 && IsWhitespace(s[|s| - 1]) then TrimEnd(s[..|s| - 1]) else s
  }

  /** `s.trim()`. */
  function Trim(s: string): string {
    TrimEnd(TrimStart(s))
  }

  /** Trimming leaves a string that starts and ends with non-whitespace alone. */
  lemma TrimOfTrimmed(s: string)
    requires |s| > 0 && !IsWhitespace(s[0]) && !IsWhitespace(s[|s| - 1])
    ensures TrimStart(s) == s && Trim(s) == s
  {
    RunEndIs(s, 0, 0, IsWhitespace);
  }
}

=== FILE: wrappers.dfy ===
/** Optional values: the model's stand-in for JavaScript's `null` and for thrown exceptions. */
module Wrappers {

  datatype Option<+T> = None | Some(value: T) {

    /** Returns the value in Some, or `default` when None. */
    function GetOr(default: T): T {
      match this
      case Some(v) => v
      case None => default
    }
  }
}
